=== FILE: README.md ===
# agent-for-company: the data pipeline and the question router, in Dafny

`app.py` is a Streamlit "AI business analyst". When the script starts, it
loads five tables:

- online sales;
- discount coupons;
- marketing spend;
- customer data, which only the dataset preview shows;
- tax amounts.

It cleans the four it uses, builds three lookups (GST by category, discount by month and
category, marketing spend by year and month) and joins them onto the sales
table column by column. When the user asks a question, a language model
classifies it into one intent. The intent names one of three pandas analyses
(`sales_trend`, `underperforming_products`, `discount_vs_revenue`). That
analysis runs on the enriched sales table, the page shows its first 20 rows,
and a second model call explains its first 5 rows, printed with their
index labels.

This project models that core and proves what it does.

| file | module | what it holds |
|---|---|---|
| `wrappers.dfy` | `Wrappers` | `Option` (a NaN-able cell) and `Result` |
| `frames.dfy` | `Frames` | the row types of the four tables the pipeline uses and the cell-level conversions (`dt.year`, `dt.month`, `astype(str)`, spend totals) |
| `series.dfy` | `Series` | an indexed pandas Series, `set_index`, label lookup, and `.map(series)`, which raises on a repeated index label |
| `ordering.dfy` | `Ordering` | the orders a groupby sorts its keys by, and the sorted distinct keys of a column |
| `enrichment.dfy` | `Enrichment` | the preprocessing block as one pure function `Enrich` of the loaded tables, with its row-by-row properties |
| `preprocessing.dfy` | `Preprocessing` | the preprocessing block as the script runs it: one class per DataFrame, one method per statement, each changing only the column it assigns; `Preprocess` is proved to compute `Enrich` |
| `analyses.dfy` | `Analyses` | the three analyses as groupby aggregations |
| `routing.dfy` | `Routing` | `strip().lower()`, the intent registry, classification, the index labels of the results and the run block |
| `findings.dfy` | `DiscountMonthFinding` | the discount join as written, and the join on a canonical month |

The replies of the language model are inputs to the model:

- the classification reply is an arbitrary string `response`;
- the explanation is an arbitrary function `explain` of the question and the preview it is shown (rows and index labels).

Behaviour that follows from pandas' defaults rather than from anything the
script spells out:

- **`sales_trend` order.** `groupby` sorts its keys, so the rows come out in ascending (Year, Month, Product_Category) order.
- **Undated sales.** `groupby` drops rows whose key holds NaN (`dropna=True`), so sales without a parseable date are left out of `sales_trend`. `SalesTrendGrandTotal` states exactly which revenue remains.
- **Index labels.** `sales_trend` and `discount_vs_revenue` end with `reset_index()`, so their index counts rows. `underperforming_products` resets the index before `sort_values`, so each printed label is the row's position among the categories in ascending string order (`UnderperformingIndexIsPreSortPosition`).
- **Missing lookup keys.**
  - A category missing from the tax table gets a NaN `GST_pct`.
  - A period with no marketing rows gets a NaN `Marketing_Spend`.
  - Only `Discount_pct` is filled with 0.
- **Repeated index labels.** `.map` through a lookup whose index repeats a label raises, and the script stops. This is modelled as an error result.
  - It can happen for the tax lookup and the discount lookup.
  - The marketing lookup is a groupby result, so it never repeats a label.
- **The discount join never matches** (see Findings). Since the discount is 0 on every row, the mean discounts are 0 too (`NoDiscountMeansZero`).

## Model

| member | source | states |
|---|---|---|
| Frames.YearOf | app.py:83 | Year is NaN exactly when the date is NaT, and otherwise the date's year |
| Frames.MonthOf | app.py:84 | Month is NaN exactly when the date is NaT, and otherwise the date's month |
| Frames.SpendTotal | app.py:93-95 | the total spend is NaN when either spend is NaN, and otherwise their sum |
| Frames.SalesMonthKey | app.py:114-117 | the sales side of the discount join probes with a numeric month (or NaN), never with text |
| Frames.MonthAsText | app.py:87 | `astype(str)` turns every coupon month into text: text stays as it is, a number becomes its decimal text, NaN becomes "nan" |
| Series.Lookup | app.py:112 | a label that is not in the index maps to NaN |
| Series.LookupAt | app.py:112 | in a lookup with unique labels, every entry's label maps to that entry's value |
| Series.MapThrough | app.py:112 | `.map(series)` succeeds exactly when the lookup's labels are unique, and then maps each cell to its label's value |
| Ordering.StrLessIsStrictTotalOrder | app.py:139 | Python's string order, by which category groups are sorted, is a strict total order |
| Ordering.SortedDistinct | app.py:108-110 | the group keys come out strictly ascending, and they are exactly the keys present in the column |
| Enrichment.GroupSum | app.py:108-110 | the groupby sum has unique labels; it has a label exactly when some row carries that key; each label's value is the NaN-skipping sum of its rows |
| Enrichment.GroupSumLookup | app.py:108-110 | looking up a key gives its group's sum, and NaN when no row has that key |
| Enrichment.Enrich | app.py:79-125 | the enriched sales table or the error the block raises; its meaning is stated by `EnrichFailure`, `EnrichKeepsRows`, `DiscountJoin`, `EnrichGst` and `EnrichMarketing` |
| Enrichment.EnrichFailure | app.py:112-119 | the block raises at the tax join exactly when two tax rows share a category, and at the discount join exactly when two coupons share (month text, category); otherwise it succeeds |
| Enrichment.EnrichKeepsRows | app.py:79-85 | every sales row is kept in order, including undated ones (their Year and Month are NaN); Revenue = Quantity × Avg_Price; a missing Coupon_Status becomes "No Coupon" |
| Enrichment.DiscountJoin | app.py:114-119 | a row whose (Month, category) label is in the discount lookup takes that value; any other row gets 0 |
| Enrichment.EnrichDiscountAlwaysZero | app.py:114-119 | whatever the tables hold, every enriched row has Discount_pct 0 |
| Enrichment.EnrichGst | app.py:112 | GST_pct is the tax row's GST with NaN filled as 0; it is NaN exactly when the category is missing from the tax table |
| Enrichment.SumForIsPeriodSpend | app.py:108-110 | the groupby sum of a (Year, Month) equals the independently defined sum of that period's marketing totals |
| Enrichment.EnrichMarketing | app.py:121-125 | an undated sale gets a NaN Marketing_Spend; a dated one gets its period's summed Offline+Online spend when the period has marketing rows, and NaN otherwise |
| Preprocessing.OnlineSales.AddRevenue | app.py:82 | the Revenue column holds Quantity × Avg_Price, row by row |
| Preprocessing.OnlineSales.AddYearMonth | app.py:83-84 | the Year and Month columns hold the date's parts, row by row |
| Preprocessing.OnlineSales.FillCouponStatus | app.py:85 | each NaN Coupon_Status becomes "No Coupon"; every other value is kept |
| Preprocessing.OnlineSales.AddGstPct | app.py:112 | the GST_pct column is assigned only when the tax lookup's labels are unique, and then holds each category's lookup |
| Preprocessing.OnlineSales.AddDiscountPct | app.py:114-119 | the Discount_pct column is assigned only when the discount lookup's labels are unique, and then holds each (Month, category) lookup with NaN filled as 0 |
| Preprocessing.OnlineSales.AddMarketingSpend | app.py:121-125 | the Marketing_Spend column holds each (Year, Month) lookup, unfilled |
| Preprocessing.OnlineSales.DeriveColumns | app.py:82-85 | after the four statements, Revenue, Year, Month and Coupon_Status hold the derived values for every row |
| Preprocessing.OnlineSales.Join | app.py:112-125 | the three joins run in order and stop at the first lookup with a repeated label, reporting which one; a failure at the tax join leaves all three columns as they were, a failure at the discount join leaves GST_pct assigned and the other two as they were; otherwise every joined column is complete; the derived columns are untouched |
| Preprocessing.DiscountCoupon.CastMonthToText | app.py:87 | every Month cell is replaced by its `astype(str)` text |
| Preprocessing.DiscountCoupon.FillDiscount | app.py:88 | each NaN Discount_pct becomes 0; every other value is kept |
| Preprocessing.DiscountCoupon.IndexByMonthAndCategory | app.py:104-106 | row i of the lookup is labelled (Month, Product_Category) of coupon i and holds its Discount_pct |
| Preprocessing.MarketingSpend.AddYearMonth | app.py:91-92 | the Year and Month columns hold the date's parts, row by row |
| Preprocessing.MarketingSpend.AddTotal | app.py:93-95 | Total_Marketing_Spend holds Offline_Spend + Online_Spend, row by row |
| Preprocessing.MarketingSpend.SumByPeriod | app.py:108-110 | the (Year, Month) groupby sum never repeats a label |
| Preprocessing.TaxAmount.FillGst | app.py:97 | each NaN GST becomes 0; every other value is kept |
| Preprocessing.TaxAmount.IndexByCategory | app.py:102 | row i of the lookup is labelled with tax row i's category and holds its GST |
| Preprocessing.BuildLookups | app.py:87-110 | the side tables end up cleaned (coupon Month as text and Discount_pct filled with 0; marketing Year, Month and Total_Marketing_Spend added; GST filled with 0), the three lookups built from them equal the lookups defined on the loaded rows, and the marketing lookup has unique labels |
| Preprocessing.Preprocess | app.py:79-125 | running the block statement by statement either stops with the error `Enrich` predicts, or leaves online_sales holding exactly the enriched table `Enrich` describes; either way the sales table has its derived columns and the three side tables are cleaned; on an error, the joined columns not yet reached keep their old contents |
| Analyses.MembersAreTheGroup | app.py:132-157 | a group holds each row carrying its key exactly as many times as the table does, and no other row |
| Analyses.GroupKeys | app.py:132 | a key is among a groupby's keys exactly when some row carries it (NaN keys excluded) |
| Analyses.TrendKeyOf | app.py:132 | a sales row has a (Year, Month, Product_Category) group exactly when it has a Year and a Month |
| Analyses.TrendLessIsStrictTotalOrder | app.py:132 | the lexicographic order on (Year, Month, Product_Category) is a strict total order |
| Analyses.GroupsPartitionRevenue | app.py:130-135 | summing the revenue of distinct groups that cover every kept row gives the revenue of the kept rows: each kept row lands in exactly one group |
| Analyses.TrendKeys | app.py:132 | the trend groups come out strictly ascending, and a label is among them exactly when some dated sale carries it |
| Analyses.SalesTrend | app.py:130-135 | the `sales_trend` table; its meaning is stated by `SalesTrendGroups`, `SalesTrendCoversGroups` and `SalesTrendGrandTotal` |
| Analyses.SalesTrendGroups | app.py:130-135 | `sales_trend` has one row per distinct (Year, Month, Product_Category) among the dated sales, in strictly ascending order, each holding the revenue sum of a non-empty group |
| Analyses.SalesTrendCoversGroups | app.py:130-135 | a (Year, Month, Product_Category) label has a `sales_trend` row exactly when some dated sale carries it |
| Analyses.SalesTrendGrandTotal | app.py:130-135 | the revenue in `sales_trend` adds up to the revenue of the dated sales |
| Analyses.Categories | app.py:139 | the category groups are strictly ascending, and they are exactly the categories present |
| Analyses.InsertByRevenue | app.py:146 | inserting into a list sorted by total_revenue keeps it sorted and adds exactly that row |
| Analyses.SortByRevenue | app.py:146 | `sort_values("total_revenue")` yields an ascending permutation of its input |
| Analyses.CategoryGroupsNonEmpty | app.py:137-157 | every listed category group has rows, so its mean discount is the true mean |
| Analyses.UnderperformingCategoriesArePresent | app.py:137-146 | the categories of `underperforming_products` are exactly the categories present in the sales table |
| Analyses.UnderperformingProducts | app.py:137-147 | the `underperforming_products` table; its meaning is stated by `UnderperformingProductsSpec` and `UnderperformingCategoriesArePresent` |
| Analyses.UnderperformingProductsSpec | app.py:137-146 | `underperforming_products` is ascending by total_revenue; it is a permutation of the per-category summaries; each row holds its category's revenue sum, mean discount and quantity sum; every present category appears exactly once |
| Analyses.DiscountVsRevenue | app.py:149-157 | the `discount_vs_revenue` table; its meaning is stated by `DiscountVsRevenueSpec` and `DiscountVsRevenueGrandTotal` |
| Analyses.DiscountVsRevenueSpec | app.py:149-157 | `discount_vs_revenue` has one row per group category, in the groupby's strictly ascending category order, so its categories are exactly those present; each row holds its category's mean discount and revenue sum over a non-empty group |
| Analyses.CategoryTotalsAgree | app.py:137-157 | for a category, the two category analyses report the same total revenue and the same mean discount |
| Analyses.DiscountVsRevenueGrandTotal | app.py:149-157 | the category totals of `discount_vs_revenue` add up to the revenue of the whole sales table |
| Analyses.NoDiscountMeansZero | app.py:142-153 | when no sale has a discount, every category's mean discount is 0 in both category analyses |
| Routing.Strip | app.py:184 | `strip()` returns an infix of its input with only whitespace removed on both sides, and the result neither starts nor ends with whitespace |
| Routing.StripPadding | app.py:184 | stripping whitespace wrapped around a text that has no outer whitespace gives back that text |
| Routing.Lower | app.py:184 | `lower()` on ASCII letters; its meaning is stated by `LowerIsLowerCase` |
| Routing.LowerIsLowerCase | app.py:184 | lower-casing leaves no ASCII capital letter and is idempotent |
| Routing.Classify | app.py:184-185 | the intent is "unknown" or a registered name; it is registered exactly when the stripped, lower-cased reply is; in that case it is that reply |
| Routing.RegistryHasThreeIntents | app.py:159-163 | the registry has exactly the three names, it reaches every analysis, and "unknown" is not a key |
| Routing.ClassifyPaddedIntent | app.py:184-185 | a registered name in any ASCII capitalisation, with any whitespace around it, is recognised as that name |
| Routing.ClassifyPaddedMixedCase | app.py:184-185 | `" Sales_Trend\n"` classifies as `sales_trend` |
| Routing.ClassifyExtraWords | app.py:184-185 | `"sales_trend please"` classifies as "unknown" |
| Routing.ClassifyUnknown | app.py:184-185 | the reply "UNKNOWN" classifies as "unknown" |
| Routing.PositionIn | app.py:145-146 | the position found is that of the first occurrence of the category, and it is past the end exactly when the category is absent |
| Routing.Run | app.py:159-163 | the registered analysis applied to the sales table, with its index labels; its meaning is stated by `RunIndexLabels`, `UnderperformingIndexIsPreSortPosition` and the three analyses' spec lemmas |
| Routing.RunIndexLabels | app.py:130-157 | every analysis result has one index label per row, and after `reset_index()` `sales_trend` and `discount_vs_revenue` label their rows 0, 1, ... |
| Routing.UnderperformingIndexIsPreSortPosition | app.py:137-147 | each index label of `underperforming_products` is the position its row had in the category-ordered table before `sort_values` |
| Routing.Prefix | app.py:260 | a prefix holds the first min(n, length) rows, unchanged |
| Routing.Head | app.py:260 | `head(n)` keeps the table's shape and holds its first min(n, row count) rows with their index labels |
| Routing.HeadOfHead | app.py:260-263 | the first n rows of the first m rows (n ≤ m) are the first n rows, so the first 5 rows of the 20-row preview are the first 5 rows of the result |
| Routing.RunAgent | app.py:250-264 | an empty question shows nothing; the "unknown" intent shows only the warning; otherwise the intent is the registered name of the classified reply |
| Routing.RunAgentRunsRegisteredAnalysis | app.py:254-264 | when an answer is shown, the registry's analysis for the intent is the one that runs, the preview is its first 20 rows (at most 20) of that analysis's table shape, and the explanation is given the first 5 rows of the preview, with their labels |
| Routing.ExplanationSeesFirstFiveRows | app.py:263 | the explanation depends on the question and the first 5 result rows with their index labels only |
| DiscountMonthFinding.AsWrittenIgnoresMatchingCoupon | app.py:114-119 | a March 2022 Apparel sale with a 15% coupon for March ("03") Apparel is enriched successfully: Revenue is 200 and GST_pct is 5, but Discount_pct is 0 |
| DiscountMonthFinding.ParseDigits | app.py:87 | reading back the decimal text of a number gives the number |
| DiscountMonthFinding.LeadingZero | app.py:87 | a leading zero does not change the number a decimal text reads as |
| DiscountMonthFinding.CanonicalMonth | app.py:87 | a canonical month is 1-12; a numeric month is canonical exactly when it is in 1-12; NaN has none |
| DiscountMonthFinding.CanonicalMonthAgrees | app.py:87 | a month number, its `astype(str)` text, its two-digit text and its text with a leading zero all mean the same canonical month |
| DiscountMonthFinding.EnrichCorrected | app.py:79-125 | the enriched table with the discount joined on the canonical month; its meaning is stated by `CorrectedDiscountApplied` and `CorrectionOnlyChangesDiscount` |
| DiscountMonthFinding.CanonicalLookupUnique | app.py:104-106 | the canonical coupon lookup has unique labels exactly when no two coupons with a readable month share (canonical month, category); coupons whose month means no month are left out of it |
| DiscountMonthFinding.CanonicalMonthOfText | app.py:87 | casting a month cell to text never changes the month it means |
| DiscountMonthFinding.CorrectedDiscountApplied | app.py:114-119 | with canonical months, a dated sale takes the discount of the coupon for its month and category, and 0 when none exists |
| DiscountMonthFinding.CorrectionOnlyChangesDiscount | app.py:112-119 | both tables fail on a repeated tax category alike; the corrected one fails on the coupons exactly when two coupons name the same readable month and category; when it succeeds, the as-written one fails only on a repeated label of unreadable-month coupons; when both succeed they agree in every column but Discount_pct |
| DiscountMonthFinding.CorrectedAppliesZeroPaddedCoupon | app.py:114-119 | with the correction, a dated sale gets the discount of a coupon written for its month in two digits ("03", "11") and its category, the case the as-written join misses |

## Left out

- Streamlit rendering, the example-question list and the dataset preview: they are display only. The run block is modelled as the `Outcome` it shows.
- Loading the workbook and CSV files: the model starts from the loaded rows. Customer data and every column the core does not read are not modelled.
- `pd.to_datetime(..., errors="coerce")`: dates arrive already parsed, with NaT as `None`. Text parsing is not modelled.
- The Groq calls and prompt text of `classify_intent` and `explain_result`: the classification reply is the input `response`, and the explanation is the input function `explain`. The API returning no message content is not modelled.
- Routing.Lower: lower-cases ASCII letters only. Python's `lower()` also maps non-ASCII characters, but this changes no classification: no registry name contains a non-ASCII character or the letter k, and the non-ASCII characters Python lowers into a string with an ASCII letter (KELVIN SIGN becomes k; LATIN CAPITAL LETTER I WITH DOT ABOVE becomes i followed by U+0307) still give no registry name.
- Floating point: sums, means and products use exact `real` arithmetic. Rounding, NaN propagation through arithmetic and pandas' float dtype for Year/Month columns are not modelled.
- Frames.MonthAsText: a coupon month read as a float would render as `"3.0"`; only integer months are modelled.
- Product_Category is never NaN in the model. A NaN category would be dropped by the category groupbys, and `.map` would match it to a tax row whose category is also NaN, since pandas treats NaN labels as equal.
- Routing.ExplanationSeesFirstFiveRows: the explanation is a function of the prompt, but the model call samples at temperature 0.3, so the same prompt can give different explanations. The index labels are modelled; the rest of `str(DataFrame)` formatting (column headers, number rendering, alignment) is not.
- Analyses.SortByRevenue: the order among rows with equal total_revenue is not specified, since pandas' default quicksort is not stable. The contract only promises ascending order and a permutation.
- Analyses.MeanDiscount: its value for an empty group is never used, because every group is non-empty (`CategoryGroupsNonEmpty`).

## Findings

| source | as written | input that shows it | evidently intended | confidence | as-written member | corrected member |
|---|---|---|---|---|---|---|
| app.py:87 | The coupon month becomes text before `set_index`. The sales rows probe the lookup with their numeric `dt.month`, so no label ever matches, and `fillna(0)` makes every Discount_pct 0. | A sale dated 2022-03 in "Apparel" and a coupon ("03", "Apparel", 15). | The sale gets the 15% coupon for its month and category: both sides use the same month key. | not executed | DiscountMonthFinding.AsWrittenIgnoresMatchingCoupon | DiscountMonthFinding.CorrectedDiscountApplied |

The as-written behaviour holds for every input (`Enrichment.EnrichDiscountAlwaysZero`).

`Preprocessing.Preprocess` models the script as it stands, so it is proved equal to the as-written `Enrich`. `DiscountMonthFinding.EnrichCorrected` is the same table with the discount joined on a canonical month number:

- a number from 1 to 12;
- its decimal text, zero-padded or not;
- a three-letter English month name.

A coupon whose month means none of these ("foo", NaN read as "nan", 13) could never match a sale, so the corrected lookup leaves it out instead of labelling it. The correction does change which coupon tables the discount lookup rejects: two coupons that spell one month differently ("3" and "03") for one category now repeat a label, while two unreadable-month coupons with the same text no longer do. `CorrectionOnlyChangesDiscount` states both, and that, where both joins succeed, the correction touches no other column. The analyses and the run block take any enriched table, so they apply to either.

=== FILE: analyses.dfy ===
/**
 * The analysis registry's three functions: group-by aggregations over the
 * enriched sales table. A pandas groupby lists its groups in ascending key
 * order (`sort=True`) and leaves out rows whose key holds a NaN
 * (`dropna=True`).
 */
module Analyses {
  import opened Wrappers
  import opened Frames
  import opened Ordering

  // ----- Grouping -----

  /** The distinct-or-not keys of the rows a groupby keeps, in row order. */
  function GroupKeys<K(==, !new)>(rows: seq<EnrichedRow>, key: EnrichedRow -> Option<K>): (r: seq<K>)
    ensures forall k :: k in r <==> exists i :: 0 <= i < |rows| && key(rows[i]) == Some(k)
  {
    if rows == [] then []
    else
      var rest := GroupKeys(rows[1..], key);
      assert forall k :: (exists i :: 0 <= i < |rows| && key(rows[i]) == Some(k)) <==>
                         key(rows[0]) == Some(k) || exists i :: 0 <= i < |rows[1..]| && key(rows[1..][i]) == Some(k) by {
        forall k | exists i :: 0 <= i < |rows| && key(rows[i]) == Some(k)
          ensures key(rows[0]) == Some(k) || exists i :: 0 <= i < |rows[1..]| && key(rows[1..][i]) == Some(k)
        {
          var i :| 0 <= i < |rows| && key(rows[i]) == Some(k);
          if i > 0 { assert rows[1..][i - 1] == rows[i]; }
        }
        forall k | exists i :: 0 <= i < |rows[1..]| && key(rows[1..][i]) == Some(k)
          ensures exists i :: 0 <= i < |rows| && key(rows[i]) == Some(k)
        {
          var i :| 0 <= i < |rows[1..]| && key(rows[1..][i]) == Some(k);
          assert rows[i + 1] == rows[1..][i];
        }
      }
      (if key(rows[0]).Some? then [key(rows[0]).value] else []) + rest
  }

  /** The rows of group `k`, in row order. */
  function Members<K(==)>(rows: seq<EnrichedRow>, key: EnrichedRow -> Option<K>, k: K): (ms: seq<EnrichedRow>)
    ensures forall m :: m in ms ==> key(m) == Some(k)
  {
    if rows == [] then []
    else (if key(rows[0]) == Some(k) then [rows[0]] else []) + Members(rows[1..], key, k)
  }

  /** A group holds each row carrying its key exactly as often as the table does, and nothing else. */
  lemma {:induction false} MembersAreTheGroup<K>(rows: seq<EnrichedRow>, key: EnrichedRow -> Option<K>, k: K)
    ensures forall r :: multiset(Members(rows, key, k))[r] == if key(r) == Some(k) then multiset(rows)[r] else 0
  {
    if rows != [] {
      MembersAreTheGroup(rows[1..], key, k);
      var head := if key(rows[0]) == Some(k) then [rows[0]] else [];
      assert Members(rows, key, k) == head + Members(rows[1..], key, k);
      assert rows == [rows[0]] + rows[1..];
    }
  }

  /** A group that some row has is not empty. */
  lemma {:induction false} MembersNonEmpty<K>(rows: seq<EnrichedRow>, key: EnrichedRow -> Option<K>, k: K, i: nat)
    requires i < |rows| && key(rows[i]) == Some(k)
    ensures |Members(rows, key, k)| > 0
  {
    if i > 0 && key(rows[0]) != Some(k) {
      MembersNonEmpty(rows[1..], key, k, i - 1);
    }
  }

  function TotalRevenue(rs: seq<EnrichedRow>): real
  {
    if rs == [] then 0.0 else rs[0].revenue + TotalRevenue(rs[1..])
  }

  function TotalDiscount(rs: seq<EnrichedRow>): real
  {
    if rs == [] then 0.0 else rs[0].discountPct + TotalDiscount(rs[1..])
  }

  function TotalQuantity(rs: seq<EnrichedRow>): int
  {
    if rs == [] then 0 else rs[0].quantity + TotalQuantity(rs[1..])
  }

  /** pandas `mean` of Discount_pct over a group (a group is never empty). */
  function MeanDiscount(rs: seq<EnrichedRow>): real
  {
    if |rs| == 0 then 0.0 else TotalDiscount(rs) / |rs| as real
  }

  /** The rows a groupby on `key` keeps: those whose key holds no NaN. */
  function Kept<K>(rows: seq<EnrichedRow>, key: EnrichedRow -> Option<K>): seq<EnrichedRow>
  {
    if rows == [] then [] else (if key(rows[0]).Some? then [rows[0]] else []) + Kept(rows[1..], key)
  }

  /** The summed revenue of the groups `ks`. */
  function GroupsRevenue<K(==)>(rows: seq<EnrichedRow>, key: EnrichedRow -> Option<K>, ks: seq<K>): real
  {
    if ks == [] then 0.0 else TotalRevenue(Members(rows, key, ks[0])) + GroupsRevenue(rows, key, ks[1..])
  }

  lemma {:induction false} GroupsRevenueOfNoRows<K>(key: EnrichedRow -> Option<K>, ks: seq<K>)
    ensures GroupsRevenue([], key, ks) == 0.0
  {
    if ks != [] { GroupsRevenueOfNoRows(key, ks[1..]); }
  }

  /** The first row adds its revenue to its own group and to no other. */
  lemma MembersRevenueStep<K>(rows: seq<EnrichedRow>, key: EnrichedRow -> Option<K>, k: K)
    requires rows != []
    ensures TotalRevenue(Members(rows, key, k)) ==
      (if key(rows[0]) == Some(k) then rows[0].revenue else 0.0) + TotalRevenue(Members(rows[1..], key, k))
  {
    var m := Members(rows[1..], key, k);
    if key(rows[0]) == Some(k) {
      assert ([rows[0]] + m)[1..] == m;
    } else {
      assert [] + m == m;
    }
  }

  /** Membership in a non-empty sequence splits into its head and its tail. */
  lemma InHeadOrTail<K>(ks: seq<K>, x: K)
    requires ks != []
    ensures x in ks <==> x == ks[0] || x in ks[1..]
  {
    assert ks == [ks[0]] + ks[1..];
  }

  /** The first row adds its revenue to the one group among `ks` it belongs to. */
  lemma {:induction false} GroupsRevenueStep<K>(rows: seq<EnrichedRow>, key: EnrichedRow -> Option<K>, ks: seq<K>)
    requires rows != []
    requires Distinct(ks)
    ensures GroupsRevenue(rows, key, ks) ==
      (if key(rows[0]).Some? && key(rows[0]).value in ks then rows[0].revenue else 0.0) + GroupsRevenue(rows[1..], key, ks)
  {
    if ks != [] {
      var k := key(rows[0]);
      var tail := ks[1..];
      DistinctTail(ks);
      GroupsRevenueStep(rows, key, tail);
      MembersRevenueStep(rows, key, ks[0]);
      var later := if k.Some? && k.value in tail then rows[0].revenue else 0.0;
      assert GroupsRevenue(rows, key, tail) == later + GroupsRevenue(rows[1..], key, tail);
      if k.Some? {
        InHeadOrTail(ks, k.value);
        if k.value == ks[0] {
          assert later == 0.0;
        }
      }
    }
  }

  /**
   * Summing the groups of a groupby gives the revenue of the rows it keeps:
   * every kept row lands in exactly one group.
   */
  lemma {:induction false} GroupsPartitionRevenue<K>(rows: seq<EnrichedRow>, key: EnrichedRow -> Option<K>, ks: seq<K>)
    requires Distinct(ks)
    requires forall i :: 0 <= i < |rows| && key(rows[i]).Some? ==> key(rows[i]).value in ks
    ensures GroupsRevenue(rows, key, ks) == TotalRevenue(Kept(rows, key))
  {
    if rows == [] {
      GroupsRevenueOfNoRows(key, ks);
    } else {
      GroupsRevenueStep(rows, key, ks);
      assert forall i :: 0 <= i < |rows[1..]| ==> rows[1..][i] == rows[i + 1];
      GroupsPartitionRevenue(rows[1..], key, ks);
      var head := if key(rows[0]).Some? then [rows[0]] else [];
      var rest := Kept(rows[1..], key);
      if key(rows[0]).Some? { assert (head + rest)[1..] == rest; } else { assert head + rest == rest; }
    }
  }

  // ----- sales_trend -----

  /** A group label of `groupby(['Year', 'Month', 'Product_Category'])`. */
  datatype TrendKey = TrendKey(year: int, month: int, productCategory: string)

  /** The label of a row's group, or None when Year or Month is NaN and groupby drops the row. */
  function TrendKeyOf(r: EnrichedRow): (k: Option<TrendKey>)
    ensures k.Some? <==> r.year.Some? && r.month.Some?
  {
    if r.year.Some? && r.month.Some? then Some(TrendKey(r.year.value, r.month.value, r.productCategory)) else None
  }

  /** Lexicographic order of the three-part label. */
  predicate TrendLess(a: TrendKey, b: TrendKey)
  {
    a.year < b.year
    || (a.year == b.year && a.month < b.month)
    || (a.year == b.year && a.month == b.month && StrLess(a.productCategory, b.productCategory))
  }

  lemma TrendLessIsStrictTotalOrder()
    ensures StrictTotalOrder(TrendLess)
  {
    StrLessIsStrictTotalOrder();
  }

  /** One row of the sales_trend table. */
  datatype TrendRow = TrendRow(year: int, month: int, productCategory: string, revenue: real)

  function TrendKeyOfRow(t: TrendRow): TrendKey
  {
    TrendKey(t.year, t.month, t.productCategory)
  }

  /** One trend row per label of `ks`, in the order of `ks`, holding that group's revenue sum. */
  function TrendRows(rows: seq<EnrichedRow>, ks: seq<TrendKey>): (ts: seq<TrendRow>)
    ensures |ts| == |ks|
    ensures forall i :: 0 <= i < |ks| ==>
      TrendKeyOfRow(ts[i]) == ks[i] && ts[i].revenue == TotalRevenue(Members(rows, TrendKeyOf, ks[i]))
  {
    if ks == [] then []
    else
      var k := ks[0];
      [TrendRow(k.year, k.month, k.productCategory, TotalRevenue(Members(rows, TrendKeyOf, k)))] + TrendRows(rows, ks[1..])
  }

  /** The group labels of the trend groupby, ascending and each once. */
  function TrendKeys(rows: seq<EnrichedRow>): (ks: seq<TrendKey>)
    ensures StrictlySorted(ks, TrendLess)
    ensures forall k :: k in ks <==> exists j :: 0 <= j < |rows| && TrendKeyOf(rows[j]) == Some(k)
  {
    TrendLessIsStrictTotalOrder();
    SortedDistinct(GroupKeys(rows, TrendKeyOf), TrendLess)
  }

  /** `groupby(['Year', 'Month', 'Product_Category'])['Revenue'].sum().reset_index()` */
  function SalesTrend(rows: seq<EnrichedRow>): seq<TrendRow>
  {
    TrendRows(rows, TrendKeys(rows))
  }

  /** Row i of sales_trend carries the i-th group label. */
  lemma SalesTrendLabels(rows: seq<EnrichedRow>)
    ensures var t, ks := SalesTrend(rows), TrendKeys(rows);
      |t| == |ks| && forall i :: 0 <= i < |t| ==> TrendKeyOfRow(t[i]) == ks[i]
  {
  }

  /** Every row of sales_trend sums a group that has rows. */
  lemma SalesTrendGroupsNonEmpty(rows: seq<EnrichedRow>)
    ensures var t := SalesTrend(rows);
      forall i :: 0 <= i < |t| ==> |Members(rows, TrendKeyOf, TrendKeyOfRow(t[i]))| > 0
  {
    var ks, t := TrendKeys(rows), SalesTrend(rows);
    SalesTrendLabels(rows);
    forall i | 0 <= i < |t| ensures |Members(rows, TrendKeyOf, TrendKeyOfRow(t[i]))| > 0 {
      assert ks[i] in ks;
      var j :| 0 <= j < |rows| && TrendKeyOf(rows[j]) == Some(ks[i]);
      MembersNonEmpty(rows, TrendKeyOf, ks[i], j);
    }
  }

  /** A label has a sales_trend row exactly when some dated sale carries it. */
  lemma SalesTrendCoversGroups(rows: seq<EnrichedRow>, k: TrendKey)
    ensures var t := SalesTrend(rows);
      (exists i :: 0 <= i < |t| && TrendKeyOfRow(t[i]) == k) <==> (exists j :: 0 <= j < |rows| && TrendKeyOf(rows[j]) == Some(k))
  {
    var ks, t := TrendKeys(rows), SalesTrend(rows);
    SalesTrendLabels(rows);
    if k in ks {
      var i :| 0 <= i < |ks| && ks[i] == k;
      assert TrendKeyOfRow(t[i]) == k;
    }
  }

  /**
   * sales_trend has one row per distinct (Year, Month, Product_Category)
   * among the dated rows, in ascending label order, holding that group's
   * summed revenue.
   */
  lemma SalesTrendGroups(rows: seq<EnrichedRow>)
    ensures var t := SalesTrend(rows);
      && (forall i, j :: 0 <= i < j < |t| ==> TrendLess(TrendKeyOfRow(t[i]), TrendKeyOfRow(t[j])))
      && (forall i :: 0 <= i < |t| ==> t[i].revenue == TotalRevenue(Members(rows, TrendKeyOf, TrendKeyOfRow(t[i]))))
      && (forall i :: 0 <= i < |t| ==> |Members(rows, TrendKeyOf, TrendKeyOfRow(t[i]))| > 0)
      && (forall k :: (exists i :: 0 <= i < |t| && TrendKeyOfRow(t[i]) == k) <==>
                      (exists j :: 0 <= j < |rows| && TrendKeyOf(rows[j]) == Some(k)))
  {
    SalesTrendLabels(rows);
    SalesTrendGroupsNonEmpty(rows);
    forall k ensures var t := SalesTrend(rows);
      (exists i :: 0 <= i < |t| && TrendKeyOfRow(t[i]) == k) <==> (exists j :: 0 <= j < |rows| && TrendKeyOf(rows[j]) == Some(k))
    {
      SalesTrendCoversGroups(rows, k);
    }
  }

  /** Whether a row has both Year and Month, i.e. is kept by the trend groupby. */
  predicate Dated(r: EnrichedRow)
  {
    r.year.Some? && r.month.Some?
  }

  function DatedRows(rows: seq<EnrichedRow>): seq<EnrichedRow>
  {
    if rows == [] then [] else (if Dated(rows[0]) then [rows[0]] else []) + DatedRows(rows[1..])
  }

  function TrendTotal(ts: seq<TrendRow>): real
  {
    if ts == [] then 0.0 else ts[0].revenue + TrendTotal(ts[1..])
  }

  lemma {:induction false} TrendTotalIsGroupsRevenue(rows: seq<EnrichedRow>, ks: seq<TrendKey>)
    ensures TrendTotal(TrendRows(rows, ks)) == GroupsRevenue(rows, TrendKeyOf, ks)
  {
    if ks != [] {
      assert TrendRows(rows, ks)[1..] == TrendRows(rows, ks[1..]);
      TrendTotalIsGroupsRevenue(rows, ks[1..]);
    }
  }

  lemma {:induction false} KeptIsDated(rows: seq<EnrichedRow>)
    ensures Kept(rows, TrendKeyOf) == DatedRows(rows)
  {
    if rows != [] { KeptIsDated(rows[1..]); }
  }

  /**
   * The revenue sales_trend reports adds up to the revenue of the rows with
   * a Year and a Month: groupby drops the undated rows and nothing else.
   */
  lemma SalesTrendGrandTotal(rows: seq<EnrichedRow>)
    ensures TrendTotal(SalesTrend(rows)) == TotalRevenue(DatedRows(rows))
  {
    TrendLessIsStrictTotalOrder();
    var ks := TrendKeys(rows);
    SortedIsDistinct(ks, TrendLess);
    TrendTotalIsGroupsRevenue(rows, ks);
    GroupsPartitionRevenue(rows, TrendKeyOf, ks);
    KeptIsDated(rows);
  }

  // ----- Per-category analyses -----

  function CategoryOf(r: EnrichedRow): Option<string>
  {
    Some(r.productCategory)
  }

  /** The groups of `groupby('Product_Category')`, in ascending order. */
  function Categories(rows: seq<EnrichedRow>): (cs: seq<string>)
    ensures StrictlySorted(cs, StrLess)
    ensures forall c :: c in cs <==> exists i :: 0 <= i < |rows| && rows[i].productCategory == c
  {
    StrLessIsStrictTotalOrder();
    var cs := SortedDistinct(GroupKeys(rows, CategoryOf), StrLess);
    assert forall c :: c in cs <==> exists i :: 0 <= i < |rows| && CategoryOf(rows[i]) == Some(c);
    cs
  }

  /** One row of the underperforming_products table. */
  datatype CategoryPerformance = CategoryPerformance(
    productCategory: string, totalRevenue: real, avgDiscount: real, totalQuantity: int)

  /** One row of the discount_vs_revenue table. */
  datatype CategoryDiscount = CategoryDiscount(productCategory: string, avgDiscountPct: real, totalRevenue: real)

  /** The `agg(total_revenue=sum, avg_discount=mean, total_quantity=sum)` row of category `c`. */
  function Performance(rows: seq<EnrichedRow>, c: string): CategoryPerformance
  {
    var ms := Members(rows, CategoryOf, c);
    CategoryPerformance(c, TotalRevenue(ms), MeanDiscount(ms), TotalQuantity(ms))
  }

  /** The `agg(avg_discount_pct=mean, total_revenue=sum)` row of category `c`. */
  function DiscountSummary(rows: seq<EnrichedRow>, c: string): CategoryDiscount
  {
    var ms := Members(rows, CategoryOf, c);
    CategoryDiscount(c, MeanDiscount(ms), TotalRevenue(ms))
  }

  predicate SortedByRevenue(ps: seq<CategoryPerformance>)
  {
    forall i, j :: 0 <= i < j < |ps| ==> ps[i].totalRevenue <= ps[j].totalRevenue
  }

  /** Putting the smallest row of a sorted list before the sorted insertion into its rest. */
  lemma InsertBehindHead(p: CategoryPerformance, ps: seq<CategoryPerformance>, tail: seq<CategoryPerformance>)
    requires ps != [] && SortedByRevenue(ps) && ps[0].totalRevenue < p.totalRevenue
    requires SortedByRevenue(tail) && multiset(tail) == multiset(ps[1..]) + multiset{p}
    ensures SortedByRevenue([ps[0]] + tail)
    ensures multiset([ps[0]] + tail) == multiset(ps) + multiset{p}
  {
    forall x | x in tail ensures ps[0].totalRevenue <= x.totalRevenue {
      assert x in multiset(tail);
      if x != p {
        assert x in multiset(ps[1..]);
        var j :| 0 <= j < |ps[1..]| && ps[1..][j] == x;
        assert ps[j + 1] == x;
      }
    }
    var r := [ps[0]] + tail;
    forall i, j | 0 <= i < j < |r| ensures r[i].totalRevenue <= r[j].totalRevenue {
      if i == 0 {
        assert r[j] == tail[j - 1];
      } else {
        assert r[i] == tail[i - 1] && r[j] == tail[j - 1];
      }
    }
    assert ps == [ps[0]] + ps[1..];
  }

  function InsertByRevenue(p: CategoryPerformance, ps: seq<CategoryPerformance>): (r: seq<CategoryPerformance>)
    requires SortedByRevenue(ps)
    ensures SortedByRevenue(r)
    ensures multiset(r) == multiset(ps) + multiset{p}
  {
    if ps == [] || p.totalRevenue <= ps[0].totalRevenue then [p] + ps
    else
      var tail := InsertByRevenue(p, ps[1..]);
      InsertBehindHead(p, ps, tail);
      [ps[0]] + tail
  }

  /** `sort_values('total_revenue')`: ascending, a permutation of its input (ties in no promised order). */
  function SortByRevenue(ps: seq<CategoryPerformance>): (r: seq<CategoryPerformance>)
    ensures SortedByRevenue(r)
    ensures multiset(r) == multiset(ps)
  {
    if ps == [] then []
    else
      assert ps == [ps[0]] + ps[1..];
      InsertByRevenue(ps[0], SortByRevenue(ps[1..]))
  }

  /** The per-category summaries in group order, before sorting. */
  function PerformanceTable(rows: seq<EnrichedRow>, cs: seq<string>): (ps: seq<CategoryPerformance>)
    ensures |ps| == |cs|
    ensures forall i :: 0 <= i < |cs| ==> ps[i] == Performance(rows, cs[i])
  {
    if cs == [] then [] else [Performance(rows, cs[0])] + PerformanceTable(rows, cs[1..])
  }

  /** `groupby('Product_Category').agg(...).sort_values('total_revenue')` */
  function UnderperformingProducts(rows: seq<EnrichedRow>): seq<CategoryPerformance>
  {
    SortByRevenue(PerformanceTable(rows, Categories(rows)))
  }

  /** The per-category discount summaries of the categories `cs`, in that order. */
  function DiscountTable(rows: seq<EnrichedRow>, cs: seq<string>): (d: seq<CategoryDiscount>)
    ensures |d| == |cs|
    ensures forall i :: 0 <= i < |cs| ==> d[i] == DiscountSummary(rows, cs[i])
  {
    if cs == [] then [] else [DiscountSummary(rows, cs[0])] + DiscountTable(rows, cs[1..])
  }

  /** `groupby('Product_Category').agg(...)`, in category order. */
  function DiscountVsRevenue(rows: seq<EnrichedRow>): seq<CategoryDiscount>
  {
    DiscountTable(rows, Categories(rows))
  }

  /** The Product_Category column of underperforming_products. */
  function PerformanceCategories(u: seq<CategoryPerformance>): (cs: seq<string>)
    ensures |cs| == |u|
    ensures forall i :: 0 <= i < |u| ==> cs[i] == u[i].productCategory
  {
    if u == [] then [] else [u[0].productCategory] + PerformanceCategories(u[1..])
  }

  /** Every group a category groupby lists has at least one row, so its mean is a true mean. */
  lemma CategoryGroupsNonEmpty(rows: seq<EnrichedRow>, c: string)
    requires c in Categories(rows)
    ensures |Members(rows, CategoryOf, c)| > 0
    ensures MeanDiscount(Members(rows, CategoryOf, c)) ==
      TotalDiscount(Members(rows, CategoryOf, c)) / |Members(rows, CategoryOf, c)| as real
  {
    var j :| 0 <= j < |rows| && rows[j].productCategory == c;
    MembersNonEmpty(rows, CategoryOf, c, j);
  }

  lemma CategoriesDistinct(rows: seq<EnrichedRow>)
    ensures Distinct(Categories(rows))
  {
    StrLessIsStrictTotalOrder();
    SortedIsDistinct(Categories(rows), StrLess);
  }

  /** Every row of underperforming_products is the summary of a category present in the data. */
  lemma UnderperformingRowsAreSummaries(rows: seq<EnrichedRow>)
    ensures var u := UnderperformingProducts(rows);
      forall i :: 0 <= i < |u| ==>
        u[i] == Performance(rows, u[i].productCategory) && u[i].productCategory in Categories(rows)
  {
    var ps := PerformanceTable(rows, Categories(rows));
    var u := UnderperformingProducts(rows);
    forall i | 0 <= i < |u|
      ensures u[i] == Performance(rows, u[i].productCategory) && u[i].productCategory in Categories(rows)
    {
      assert u[i] in multiset(u);
      assert u[i] in ps;
    }
  }

  /** Every category present in the data has a row in underperforming_products. */
  lemma UnderperformingCoversCategories(rows: seq<EnrichedRow>, c: string)
    requires c in Categories(rows)
    ensures c in PerformanceCategories(UnderperformingProducts(rows))
  {
    var cs := Categories(rows);
    var ps := PerformanceTable(rows, cs);
    var u := UnderperformingProducts(rows);
    var k :| 0 <= k < |cs| && cs[k] == c;
    assert ps[k] in multiset(ps);
    assert ps[k] in u;
    var i :| 0 <= i < |u| && u[i] == ps[k];
    assert PerformanceCategories(u)[i] == c;
  }

  /** No category appears twice in underperforming_products. */
  lemma UnderperformingCategoriesDistinct(rows: seq<EnrichedRow>)
    ensures Distinct(PerformanceCategories(UnderperformingProducts(rows)))
  {
    var cs := Categories(rows);
    var ps := PerformanceTable(rows, cs);
    var u := UnderperformingProducts(rows);
    CategoriesDistinct(rows);
    assert Distinct(ps) by {
      forall i, j | 0 <= i < j < |ps| ensures ps[i] != ps[j] {
        assert ps[i].productCategory == cs[i];
      }
    }
    DistinctPermutation(u, ps);
    UnderperformingRowsAreSummaries(rows);
    forall i, j | 0 <= i < j < |u| ensures u[i].productCategory != u[j].productCategory {
      assert u[i] != u[j];
    }
  }

  /**
   * underperforming_products: one row per category present in the data,
   * holding that category's revenue sum, discount mean and quantity sum,
   * in ascending order of total revenue.
   */
  lemma UnderperformingProductsSpec(rows: seq<EnrichedRow>)
    ensures var u := UnderperformingProducts(rows);
      && SortedByRevenue(u)
      && multiset(u) == multiset(PerformanceTable(rows, Categories(rows)))
      && (forall i :: 0 <= i < |u| ==> u[i] == Performance(rows, u[i].productCategory))
      && (forall c :: c in PerformanceCategories(u) <==> c in Categories(rows))
      && Distinct(PerformanceCategories(u))
      && (forall i :: 0 <= i < |u| ==> |Members(rows, CategoryOf, u[i].productCategory)| > 0)
  {
    UnderperformingRowsAreSummaries(rows);
    UnderperformingCategoriesDistinct(rows);
    UnderperformingCategoriesArePresent(rows);
    UnderperformingGroupsNonEmpty(rows);
  }

  /** The categories of underperforming_products are exactly the categories present. */
  lemma UnderperformingCategoriesArePresent(rows: seq<EnrichedRow>)
    ensures forall c :: c in PerformanceCategories(UnderperformingProducts(rows)) <==> c in Categories(rows)
  {
    var u := UnderperformingProducts(rows);
    UnderperformingRowsAreSummaries(rows);
    forall c ensures c in PerformanceCategories(u) <==> c in Categories(rows) {
      if c in Categories(rows) { UnderperformingCoversCategories(rows, c); }
    }
  }

  /** Every row of underperforming_products sums a group that has rows. */
  lemma UnderperformingGroupsNonEmpty(rows: seq<EnrichedRow>)
    ensures var u := UnderperformingProducts(rows);
      forall i :: 0 <= i < |u| ==> |Members(rows, CategoryOf, u[i].productCategory)| > 0
  {
    var u := UnderperformingProducts(rows);
    UnderperformingRowsAreSummaries(rows);
    forall i | 0 <= i < |u| ensures |Members(rows, CategoryOf, u[i].productCategory)| > 0 {
      CategoryGroupsNonEmpty(rows, u[i].productCategory);
    }
  }

  /**
   * discount_vs_revenue: one row per category present in the data, in
   * ascending category order, holding that category's discount mean and
   * revenue sum.
   */
  lemma DiscountVsRevenueSpec(rows: seq<EnrichedRow>)
    ensures var d := DiscountVsRevenue(rows);
      && |d| == |Categories(rows)|
      && (forall i :: 0 <= i < |d| ==> d[i].productCategory == Categories(rows)[i])
      && (forall i, j :: 0 <= i < j < |d| ==> StrLess(d[i].productCategory, d[j].productCategory))
      && (forall i :: 0 <= i < |d| ==> d[i] == DiscountSummary(rows, d[i].productCategory))
      && (forall i :: 0 <= i < |d| ==> |Members(rows, CategoryOf, d[i].productCategory)| > 0)
  {
    var d := DiscountVsRevenue(rows);
    var cs := Categories(rows);
    forall i | 0 <= i < |d| ensures |Members(rows, CategoryOf, d[i].productCategory)| > 0 {
      CategoryGroupsNonEmpty(rows, cs[i]);
    }
  }

  /** The two category analyses report the same revenue and mean discount for a category. */
  lemma CategoryTotalsAgree(rows: seq<EnrichedRow>, i: nat, j: nat)
    requires i < |UnderperformingProducts(rows)| && j < |DiscountVsRevenue(rows)|
    requires UnderperformingProducts(rows)[i].productCategory == DiscountVsRevenue(rows)[j].productCategory
    ensures UnderperformingProducts(rows)[i].totalRevenue == DiscountVsRevenue(rows)[j].totalRevenue
    ensures UnderperformingProducts(rows)[i].avgDiscount == DiscountVsRevenue(rows)[j].avgDiscountPct
  {
    UnderperformingRowsAreSummaries(rows);
  }

  function DiscountTableRevenue(d: seq<CategoryDiscount>): real
  {
    if d == [] then 0.0 else d[0].totalRevenue + DiscountTableRevenue(d[1..])
  }

  lemma {:induction false} DiscountTableIsGroupsRevenue(rows: seq<EnrichedRow>, cs: seq<string>)
    ensures DiscountTableRevenue(DiscountTable(rows, cs)) == GroupsRevenue(rows, CategoryOf, cs)
  {
    if cs != [] {
      assert DiscountTable(rows, cs)[1..] == DiscountTable(rows, cs[1..]);
      DiscountTableIsGroupsRevenue(rows, cs[1..]);
    }
  }

  lemma {:induction false} KeptIsAll(rows: seq<EnrichedRow>)
    ensures Kept(rows, CategoryOf) == rows
  {
    if rows != [] { KeptIsAll(rows[1..]); }
  }

  /** Every row has a category, so the category totals add up to the revenue of the whole table. */
  lemma DiscountVsRevenueGrandTotal(rows: seq<EnrichedRow>)
    ensures DiscountTableRevenue(DiscountVsRevenue(rows)) == TotalRevenue(rows)
  {
    var cs := Categories(rows);
    CategoriesDistinct(rows);
    DiscountTableIsGroupsRevenue(rows, cs);
    GroupsPartitionRevenue(rows, CategoryOf, cs);
    KeptIsAll(rows);
  }

  lemma {:induction false} TotalDiscountZero(rs: seq<EnrichedRow>)
    requires forall r :: r in rs ==> r.discountPct == 0.0
    ensures TotalDiscount(rs) == 0.0
  {
    if rs != [] {
      TotalDiscountZero(rs[1..]);
    }
  }

  lemma {:induction false} MembersAreRows(rows: seq<EnrichedRow>, c: string)
    ensures forall m :: m in Members(rows, CategoryOf, c) ==> m in rows
  {
    if rows != [] {
      MembersAreRows(rows[1..], c);
    }
  }

  /** With no discount on any row, every category's mean discount is 0. */
  lemma NoDiscountMeansZero(rows: seq<EnrichedRow>, c: string)
    requires forall i :: 0 <= i < |rows| ==> rows[i].discountPct == 0.0
    ensures Performance(rows, c).avgDiscount == 0.0
    ensures DiscountSummary(rows, c).avgDiscountPct == 0.0
  {
    MembersAreRows(rows, c);
    TotalDiscountZero(Members(rows, CategoryOf, c));
  }
}

=== FILE: enrichment.dfy ===
/**
 * The preprocessing block of the agent as a pure function of the four loaded
 * tables: the lookups it builds and the enriched sales table it produces,
 * row by row. The imperative, column-by-column form is `Preprocessing`,
 * which is proved to compute this.
 */
module Enrichment {
  import opened Wrappers
  import opened Frames
  import opened Series
  import opened Ordering

  /** The `.map` call that raises, when a lookup's index repeats a key. */
  datatype PipelineError = NonUniqueTaxIndex | NonUniqueDiscountIndex

  /** The keys of a column that are not NaN, in row order. */
  function PresentKeys<K(==, !new)>(keys: seq<Option<K>>): (r: seq<K>)
    ensures forall k :: k in r <==> Some(k) in keys
  {
    if keys == [] then []
    else
      assert keys == [keys[0]] + keys[1..];
      (if keys[0].Some? then [keys[0].value] else []) + PresentKeys(keys[1..])
  }

  /** The sum of the non-NaN values of the rows labelled `k` (pandas' `sum` skips NaN). */
  function SumFor<K(==)>(keys: seq<Option<K>>, values: seq<Option<real>>, k: K): real
    requires |keys| == |values|
  {
    if keys == [] then 0.0
    else (if keys[0] == Some(k) then values[0].GetOr(0.0) else 0.0) + SumFor(keys[1..], values[1..], k)
  }

  /**
   * `groupby(keys)[values].sum()`: one entry per distinct non-NaN key, in
   * ascending key order, holding the sum of that group's values.
   */
  function GroupSum<K(==, !new)>(keys: seq<Option<K>>, values: seq<Option<real>>, lt: (K, K) -> bool): (s: Series<K, real>)
    requires |keys| == |values|
    requires StrictTotalOrder(lt)
    ensures UniqueIndex(s)
    ensures forall k :: HasKey(s, k) <==> Some(k) in keys
    ensures forall i :: 0 <= i < |s| ==> s[i].value == Some(SumFor(keys, values, s[i].key))
  {
    var groups := SortedDistinct(PresentKeys(keys), lt);
    SortedIsDistinct(groups, lt);
    var s := SetIndex(groups, seq(|groups|, i requires 0 <= i < |groups| => Some(SumFor(keys, values, groups[i]))));
    assert forall k :: HasKey(s, k) <==> k in groups by {
      forall k ensures HasKey(s, k) <==> k in groups {
        if k in groups {
          var i :| 0 <= i < |groups| && groups[i] == k;
          assert s[i].key == k;
        }
      }
    }
    s
  }

  /** Looking a key up in a groupby-sum gives that group's sum, or NaN when no row has the key. */
  lemma GroupSumLookup<K(!new)>(keys: seq<Option<K>>, values: seq<Option<real>>, lt: (K, K) -> bool, k: K)
    requires |keys| == |values|
    requires StrictTotalOrder(lt)
    ensures Lookup(GroupSum(keys, values, lt), k) == if Some(k) in keys then Some(SumFor(keys, values, k)) else None
  {
    var s := GroupSum(keys, values, lt);
    if Some(k) in keys {
      var i :| 0 <= i < |s| && s[i].key == k;
      LookupAt(s, i);
    }
  }

  /** `tax_amount.set_index("Product_Category")["GST"]` after `GST.fillna(0)`. */
  function TaxLookup(tax: seq<TaxRecord>): Series<string, real>
  {
    SetIndex(seq(|tax|, i requires 0 <= i < |tax| => tax[i].productCategory),
             seq(|tax|, i requires 0 <= i < |tax| => Some(tax[i].gst.GetOr(0.0))))
  }

  /**
   * `discount_coupon.set_index(["Month", "Product_Category"])["Discount_pct"]`
   * after `Month.astype(str)` and `Discount_pct.fillna(0)`.
   */
  function DiscountLookup(coupons: seq<CouponRecord>): Series<DiscountKey, real>
  {
    SetIndex(seq(|coupons|, i requires 0 <= i < |coupons| => DiscountKey(MonthAsText(coupons[i].month), coupons[i].productCategory)),
             seq(|coupons|, i requires 0 <= i < |coupons| => Some(coupons[i].discountPct.GetOr(0.0))))
  }

  /** The (Year, Month) group key of each marketing row. */
  function MarketingLabels(marketing: seq<MarketingRecord>): (r: seq<Option<Period>>)
    ensures |r| == |marketing|
  {
    seq(|marketing|, i requires 0 <= i < |marketing| => GroupLabel(PeriodOf(marketing[i].date)))
  }

  /** `Total_Marketing_Spend` of each marketing row. */
  function MarketingTotals(marketing: seq<MarketingRecord>): (r: seq<Option<real>>)
    ensures |r| == |marketing|
  {
    seq(|marketing|, i requires 0 <= i < |marketing| => SpendTotal(marketing[i].offlineSpend, marketing[i].onlineSpend))
  }

  /** `marketing_spend.groupby(["Year", "Month"])["Total_Marketing_Spend"].sum()`. */
  function MarketingLookup(marketing: seq<MarketingRecord>): Series<Period, real>
  {
    PeriodLessIsStrictTotalOrder();
    GroupSum(MarketingLabels(marketing), MarketingTotals(marketing), PeriodLess)
  }

  /** One sales row after lines 82-85 and the three joins. */
  function EnrichRow(r: SalesRecord, tax: Series<string, real>, discount: Series<DiscountKey, real>,
                     marketing: Series<Period, real>): EnrichedRow
  {
    var year := YearOf(r.transactionDate);
    var month := MonthOf(r.transactionDate);
    EnrichedRow(
      r.transactionDate, r.productCategory, r.quantity, r.avgPrice,
      Some(r.couponStatus.GetOr(NoCoupon)),
      LineRevenue(r.quantity, r.avgPrice),
      year, month,
      Lookup(tax, r.productCategory),
      Lookup(discount, DiscountKey(SalesMonthKey(month), r.productCategory)).GetOr(0.0),
      Lookup(marketing, Period(year, month)))
  }

  /** The enriched sales table, or the error the first failing `.map` raises. */
  function Enrich(sales: seq<SalesRecord>, coupons: seq<CouponRecord>, marketing: seq<MarketingRecord>,
                  tax: seq<TaxRecord>): Result<seq<EnrichedRow>, PipelineError>
  {
    var taxLookup := TaxLookup(tax);
    var discountLookup := DiscountLookup(coupons);
    var marketingLookup := MarketingLookup(marketing);
    if !UniqueIndex(taxLookup) then Failure(NonUniqueTaxIndex)
    else if !UniqueIndex(discountLookup) then Failure(NonUniqueDiscountIndex)
    else Success(seq(|sales|, i requires 0 <= i < |sales| =>
                       EnrichRow(sales[i], taxLookup, discountLookup, marketingLookup)))
  }

  /** Two tax rows name the same category. */
  predicate DuplicateCategory(tax: seq<TaxRecord>)
  {
    exists i, j :: 0 <= i < j < |tax| && tax[i].productCategory == tax[j].productCategory
  }

  /** Two coupon rows carry the same (Month as text, Product_Category) key. */
  predicate DuplicateDiscountLabel(coupons: seq<CouponRecord>)
  {
    exists i, j :: 0 <= i < j < |coupons| &&
      MonthAsText(coupons[i].month) == MonthAsText(coupons[j].month) &&
      coupons[i].productCategory == coupons[j].productCategory
  }

  lemma TaxLookupUnique(tax: seq<TaxRecord>)
    ensures UniqueIndex(TaxLookup(tax)) <==> !DuplicateCategory(tax)
  {
    var t := TaxLookup(tax);
    if !UniqueIndex(t) {
      var i, j :| 0 <= i < j < |t| && t[i].key == t[j].key;
      assert tax[i].productCategory == tax[j].productCategory;
    }
    if DuplicateCategory(tax) {
      var i, j :| 0 <= i < j < |tax| && tax[i].productCategory == tax[j].productCategory;
      assert t[i].key == t[j].key;
    }
  }

  lemma DiscountLookupUnique(coupons: seq<CouponRecord>)
    ensures UniqueIndex(DiscountLookup(coupons)) <==> !DuplicateDiscountLabel(coupons)
  {
    var d := DiscountLookup(coupons);
    if !UniqueIndex(d) {
      var i, j :| 0 <= i < j < |d| && d[i].key == d[j].key;
      assert MonthAsText(coupons[i].month) == MonthAsText(coupons[j].month);
    }
    if DuplicateDiscountLabel(coupons) {
      var i, j :| 0 <= i < j < |coupons| && MonthAsText(coupons[i].month) == MonthAsText(coupons[j].month) &&
        coupons[i].productCategory == coupons[j].productCategory;
      assert d[i].key == d[j].key;
    }
  }

  /**
   * The block fails exactly when a lookup's index repeats a key: the tax
   * join (line 112) runs first, then the discount join (lines 114-119); the
   * marketing groupby never repeats a key.
   */
  lemma EnrichFailure(sales: seq<SalesRecord>, coupons: seq<CouponRecord>, marketing: seq<MarketingRecord>,
                      tax: seq<TaxRecord>)
    ensures Enrich(sales, coupons, marketing, tax) == Failure(NonUniqueTaxIndex) <==> DuplicateCategory(tax)
    ensures Enrich(sales, coupons, marketing, tax) == Failure(NonUniqueDiscountIndex) <==>
              !DuplicateCategory(tax) && DuplicateDiscountLabel(coupons)
    ensures Enrich(sales, coupons, marketing, tax).Success? <==>
              !DuplicateCategory(tax) && !DuplicateDiscountLabel(coupons)
  {
    TaxLookupUnique(tax);
    DiscountLookupUnique(coupons);
  }

  /**
   * An enriched row carries its sale's columns unchanged; Year and Month are
   * NaN exactly when the date is NaT and otherwise the date's parts; Revenue
   * is Quantity times Avg_Price; a missing Coupon_Status is "No Coupon".
   */
  predicate KeepsSale(e: EnrichedRow, s: SalesRecord)
  {
    && e.transactionDate == s.transactionDate
    && e.productCategory == s.productCategory
    && e.quantity == s.quantity
    && e.avgPrice == s.avgPrice
    && e.revenue == s.quantity as real * s.avgPrice
    && (e.year.None? <==> s.transactionDate.None?)
    && (e.month.None? <==> s.transactionDate.None?)
    && (s.transactionDate.Some? ==>
          e.year == Some(s.transactionDate.value.year) && e.month == Some(s.transactionDate.value.month))
    && e.couponStatus == (if s.couponStatus.Some? then s.couponStatus else Some(NoCoupon))
  }

  lemma EnrichRowKeepsSale(r: SalesRecord, tax: Series<string, real>, discount: Series<DiscountKey, real>,
                           marketing: Series<Period, real>)
    ensures KeepsSale(EnrichRow(r, tax, discount, marketing), r)
  {
  }

  /** Every sales row is kept, in its order, with its own columns as `KeepsSale` describes; undated rows are not dropped. */
  lemma EnrichKeepsRows(sales: seq<SalesRecord>, coupons: seq<CouponRecord>, marketing: seq<MarketingRecord>,
                        tax: seq<TaxRecord>)
    requires Enrich(sales, coupons, marketing, tax).Success?
    ensures var rows := Enrich(sales, coupons, marketing, tax).value;
      |rows| == |sales| && forall i :: 0 <= i < |sales| ==> KeepsSale(rows[i], sales[i])
  {
    var t, d, m := TaxLookup(tax), DiscountLookup(coupons), MarketingLookup(marketing);
    var rows := Enrich(sales, coupons, marketing, tax).value;
    forall i | 0 <= i < |sales| ensures KeepsSale(rows[i], sales[i]) {
      assert rows[i] == EnrichRow(sales[i], t, d, m);
      EnrichRowKeepsSale(sales[i], t, d, m);
    }
  }

  /**
   * The discount join matches exactly: a row whose (Month, Product_Category)
   * key is in the lookup takes its value (NaN filled with 0), any other row
   * gets 0.
   */
  lemma DiscountJoin(r: SalesRecord, tax: Series<string, real>, discount: Series<DiscountKey, real>,
                     marketing: Series<Period, real>)
    requires UniqueIndex(discount)
    ensures var key := DiscountKey(SalesMonthKey(MonthOf(r.transactionDate)), r.productCategory);
      var pct := EnrichRow(r, tax, discount, marketing).discountPct;
      && (forall j :: 0 <= j < |discount| && discount[j].key == key ==> pct == discount[j].value.GetOr(0.0))
      && (!HasKey(discount, key) ==> pct == 0.0)
  {
    var key := DiscountKey(SalesMonthKey(MonthOf(r.transactionDate)), r.productCategory);
    forall j | 0 <= j < |discount| && discount[j].key == key
      ensures EnrichRow(r, tax, discount, marketing).discountPct == discount[j].value.GetOr(0.0)
    {
      LookupAt(discount, j);
    }
  }

  /**
   * Every key of the discount lookup holds its month as text, while the
   * sales side holds a number or NaN, so no row ever matches and every
   * Discount_pct is 0, whatever the coupon table holds.
   */
  lemma EnrichDiscountAlwaysZero(sales: seq<SalesRecord>, coupons: seq<CouponRecord>,
                                 marketing: seq<MarketingRecord>, tax: seq<TaxRecord>)
    requires Enrich(sales, coupons, marketing, tax).Success?
    ensures var rows := Enrich(sales, coupons, marketing, tax).value;
      forall i :: 0 <= i < |rows| ==> rows[i].discountPct == 0.0
  {
    var d := DiscountLookup(coupons);
    forall i | 0 <= i < |sales|
      ensures !HasKey(d, DiscountKey(SalesMonthKey(MonthOf(sales[i].transactionDate)), sales[i].productCategory))
    {
      forall j | 0 <= j < |d| ensures d[j].key.month.MonthText? {
        assert d[j].key.month == MonthAsText(coupons[j].month);
      }
    }
  }

  /** Some tax row names category `c`. */
  predicate CategoryInTable(tax: seq<TaxRecord>, c: string)
  {
    exists j :: 0 <= j < |tax| && tax[j].productCategory == c
  }

  /**
   * GST_pct is the tax table's GST for the row's category (a NaN GST having
   * been filled with 0), and stays NaN for a category the table lacks.
   */
  lemma EnrichGst(sales: seq<SalesRecord>, coupons: seq<CouponRecord>, marketing: seq<MarketingRecord>,
                  tax: seq<TaxRecord>)
    requires Enrich(sales, coupons, marketing, tax).Success?
    ensures var rows := Enrich(sales, coupons, marketing, tax).value;
      && (forall i, j :: 0 <= i < |rows| && 0 <= j < |tax| && tax[j].productCategory == sales[i].productCategory ==>
            rows[i].gstPct == Some(tax[j].gst.GetOr(0.0)))
      && (forall i :: 0 <= i < |rows| ==> (rows[i].gstPct.None? <==> !CategoryInTable(tax, sales[i].productCategory)))
  {
    var t := TaxLookup(tax);
    forall i, j | 0 <= i < |sales| && 0 <= j < |tax| && tax[j].productCategory == sales[i].productCategory
      ensures Lookup(t, sales[i].productCategory) == Some(tax[j].gst.GetOr(0.0))
    {
      LookupAt(t, j);
    }
    forall i | 0 <= i < |sales| && !CategoryInTable(tax, sales[i].productCategory)
      ensures !HasKey(t, sales[i].productCategory)
    {
    }
  }

  /** Some marketing row is dated in month `m` of year `y`. */
  predicate HasPeriod(marketing: seq<MarketingRecord>, y: int, m: int)
  {
    exists j :: 0 <= j < |marketing| && marketing[j].date == Some(Date(y, m))
  }

  /** Offline plus online spend of the marketing rows dated in month `m` of `y`, a row with a NaN spend adding nothing. */
  function PeriodSpend(marketing: seq<MarketingRecord>, y: int, m: int): real
  {
    if marketing == [] then 0.0
    else
      var r := marketing[0];
      (if r.date == Some(Date(y, m)) && r.offlineSpend.Some? && r.onlineSpend.Some?
       then r.offlineSpend.value + r.onlineSpend.value else 0.0)
      + PeriodSpend(marketing[1..], y, m)
  }

  lemma {:induction false} SumForIsPeriodSpend(marketing: seq<MarketingRecord>, y: int, m: int)
    ensures SumFor(MarketingLabels(marketing), MarketingTotals(marketing), Period(Some(y), Some(m))) ==
            PeriodSpend(marketing, y, m)
  {
    if marketing != [] {
      assert MarketingLabels(marketing)[1..] == MarketingLabels(marketing[1..]);
      assert MarketingTotals(marketing)[1..] == MarketingTotals(marketing[1..]);
      SumForIsPeriodSpend(marketing[1..], y, m);
    }
  }

  /**
   * Marketing_Spend is the summed spend of the marketing rows of the same
   * (Year, Month), and stays NaN for a row whose date is NaT or whose month
   * has no marketing row.
   */
  lemma EnrichMarketing(sales: seq<SalesRecord>, coupons: seq<CouponRecord>, marketing: seq<MarketingRecord>,
                        tax: seq<TaxRecord>)
    requires Enrich(sales, coupons, marketing, tax).Success?
    ensures var rows := Enrich(sales, coupons, marketing, tax).value;
      forall i :: 0 <= i < |rows| ==>
        rows[i].marketingSpend ==
          match sales[i].transactionDate
          case None => None
          case Some(d) => if HasPeriod(marketing, d.year, d.month) then Some(PeriodSpend(marketing, d.year, d.month)) else None
  {
    var labels, totals := MarketingLabels(marketing), MarketingTotals(marketing);
    PeriodLessIsStrictTotalOrder();
    forall i | 0 <= i < |sales|
      ensures Lookup(MarketingLookup(marketing), PeriodOf(sales[i].transactionDate)) ==
        match sales[i].transactionDate
        case None => None
        case Some(d) => if HasPeriod(marketing, d.year, d.month) then Some(PeriodSpend(marketing, d.year, d.month)) else None
    {
      var p := PeriodOf(sales[i].transactionDate);
      GroupSumLookup(labels, totals, PeriodLess, p);
      match sales[i].transactionDate
      case None =>
        assert Some(p) !in labels;
      case Some(d) =>
        assert Some(p) in labels <==> HasPeriod(marketing, d.year, d.month) by {
          if HasPeriod(marketing, d.year, d.month) {
            var j :| 0 <= j < |marketing| && marketing[j].date == Some(Date(d.year, d.month));
            assert labels[j] == Some(p);
          }
        }
        SumForIsPeriodSpend(marketing, d.year, d.month);
    }
  }
}

=== FILE: findings.dfy ===
/**
 * The discount join (app.py lines 87 and 114-119) keys the coupon lookup by
 * the coupon month as TEXT (`astype(str)`) and probes it with the sales
 * month as a NUMBER, so no probe ever matches and every sales row gets a
 * Discount_pct of 0. `Enrichment.Enrich` models the join as written; this
 * module exhibits the mismatch on a concrete table and gives the join on a
 * canonical month number both sides agree on, with what it promises.
 */
module DiscountMonthFinding {
  import opened Wrappers
  import opened Frames
  import opened Series
  import opened Enrichment

  // ----- The join as written -----

  /**
   * A March 2022 Apparel sale and a coupon for March ("03") Apparel at 15%:
   * the lookup builds, the sale is enriched, and its Discount_pct is 0.
   */
  lemma AsWrittenIgnoresMatchingCoupon()
    ensures var sales := [SalesRecord(Some(Date(2022, 3)), "Apparel", 10, 20.0, Some("Used"))];
      var coupons := [CouponRecord(MonthText("03"), "Apparel", Some(15.0))];
      var tax := [TaxRecord("Apparel", Some(5.0))];
      var result := Enrich(sales, coupons, [], tax);
      && result.Success?
      && result.value[0].revenue == 200.0
      && result.value[0].gstPct == Some(5.0)
      && result.value[0].discountPct == 0.0
  {
    var sales := [SalesRecord(Some(Date(2022, 3)), "Apparel", 10, 20.0, Some("Used"))];
    var coupons := [CouponRecord(MonthText("03"), "Apparel", Some(15.0))];
    var tax := [TaxRecord("Apparel", Some(5.0))];
    EnrichFailure(sales, coupons, [], tax);
    EnrichDiscountAlwaysZero(sales, coupons, [], tax);
    EnrichGst(sales, coupons, [], tax);
  }

  // ----- A canonical month -----

  const MonthNumbers: map<string, int> := map[
    "Jan" := 1, "Feb" := 2, "Mar" := 3, "Apr" := 4, "May" := 5, "Jun" := 6,
    "Jul" := 7, "Aug" := 8, "Sep" := 9, "Oct" := 10, "Nov" := 11, "Dec" := 12
  ]

  predicate IsDigit(c: char)
  {
    '0' <= c <= '9'
  }

  /** The value of a non-empty run of decimal digits, leading zeros allowed. */
  function ParseDecimal(s: string): (r: Option<nat>)
    ensures r.Some? <==> |s| > 0 && forall i :: 0 <= i < |s| ==> IsDigit(s[i])
  {
    if |s| == 0 || !IsDigit(s[|s| - 1]) then None
    else
      var d := s[|s| - 1] as int - '0' as int;
      if |s| == 1 then Some(d)
      else
        var prefix := ParseDecimal(s[..|s| - 1]);
        assert forall i :: 0 <= i < |s| - 1 ==> s[..|s| - 1][i] == s[i];
        if prefix.None? then None else Some(prefix.value * 10 + d)
  }

  /** Reading back the decimal text of a number gives the number. */
  lemma {:induction false} ParseDigits(n: nat)
    ensures ParseDecimal(Digits(n)) == Some(n)
  {
    if n >= 10 {
      ParseDigits(n / 10);
      var s := Digits(n);
      assert s[..|s| - 1] == Digits(n / 10);
    }
  }

  /**
   * The month a month cell means, 1 to 12, whether it holds a number, its
   * decimal text (zero-padded or not) or a three-letter English name;
   * None for NaN and for anything else.
   */
  function CanonicalMonth(k: MonthKey): (m: Option<int>)
    ensures m.Some? ==> 1 <= m.value <= 12
    ensures k.MonthNumber? ==> (m.Some? <==> 1 <= k.number <= 12) && (m.Some? ==> m.value == k.number)
    ensures k.MonthNaN? ==> m.None?
  {
    match k
    case MonthNumber(n) => if 1 <= n <= 12 then Some(n) else None
    case MonthNaN => None
    case MonthText(t) =>
      if t in MonthNumbers then Some(MonthNumbers[t])
      else
        var v := ParseDecimal(t);
        if v.Some? && 1 <= v.value <= 12 then Some(v.value) else None
  }

  /** Leading zeros do not change a decimal's value. */
  lemma {:induction false} LeadingZero(t: string)
    requires ParseDecimal(t).Some?
    ensures ParseDecimal("0" + t) == ParseDecimal(t)
  {
    var z := "0" + t;
    assert z[..|z| - 1] == "0" + t[..|t| - 1];
    if |t| == 1 {
      assert z[..|z| - 1] == "0";
    } else {
      LeadingZero(t[..|t| - 1]);
    }
  }

  /** Every month name starts with a capital letter, so no digit text is a month name. */
  lemma MonthNamesAreCapitalised(t: string)
    ensures t in MonthNumbers ==> |t| == 3 && 'A' <= t[0] <= 'Z'
  {
  }

  /** A month number written with two digits: "03" for March, "11" for November. */
  function TwoDigitText(n: nat): string
  {
    if n < 10 then "0" + IntText(n) else IntText(n)
  }

  /**
   * A month number and the text `astype(str)` turns it into mean the same
   * month, and so do its two-digit text and any text with a leading zero:
   * the canonical month is the same key on both sides of the join.
   */
  lemma CanonicalMonthAgrees(n: int)
    requires 1 <= n <= 12
    ensures CanonicalMonth(MonthNumber(n)) == Some(n)
    ensures CanonicalMonth(MonthAsText(MonthNumber(n))) == Some(n)
    ensures CanonicalMonth(MonthText("0" + IntText(n))) == Some(n)
    ensures CanonicalMonth(MonthText(TwoDigitText(n))) == Some(n)
  {
    var t := Digits(n);
    ParseDigits(n);
    LeadingZero(t);
    MonthNamesAreCapitalised(t);
    MonthNamesAreCapitalised("0" + t);
    assert IsDigit(t[0]) && ("0" + t)[0] == '0';
  }

  // ----- The corrected join -----

  /** A coupon lookup label on the canonical month. */
  datatype CouponKey = CouponKey(month: Option<int>, productCategory: string)

  /** Whether a coupon's month cell means a month at all. */
  predicate ReadableMonth(c: CouponRecord)
  {
    CanonicalMonth(c.month).Some?
  }

  /** The positions below `n` of the coupons whose month is readable, in table order. */
  function ReadablePositions(coupons: seq<CouponRecord>, n: nat): (ps: seq<nat>)
    requires n <= |coupons|
    ensures forall k :: 0 <= k < |ps| ==> ps[k] < n && ReadableMonth(coupons[ps[k]])
    ensures forall k, l :: 0 <= k < l < |ps| ==> ps[k] < ps[l]
  {
    if n == 0 then []
    else
      var ps := ReadablePositions(coupons, n - 1);
      if ReadableMonth(coupons[n - 1]) then ps + [n - 1] else ps
  }

  /** Every coupon below `n` whose month is readable is listed, at position `k`. */
  lemma {:induction false} ReadablePositionOf(coupons: seq<CouponRecord>, n: nat, i: nat) returns (k: nat)
    requires i < n <= |coupons| && ReadableMonth(coupons[i])
    ensures k < |ReadablePositions(coupons, n)| && ReadablePositions(coupons, n)[k] == i
  {
    if i < n - 1 {
      k := ReadablePositionOf(coupons, n - 1, i);
    } else {
      k := |ReadablePositions(coupons, n - 1)|;
    }
  }

  /**
   * The coupon lookup, indexed by canonical month and category. A coupon
   * whose month means no month could never match a sale, so it is left out
   * of the lookup rather than given a label of its own.
   */
  function CanonicalDiscountLookup(coupons: seq<CouponRecord>): (d: Series<CouponKey, real>)
    ensures var ps := ReadablePositions(coupons, |coupons|);
      && |d| == |ps|
      && forall k :: 0 <= k < |d| ==>
           d[k] == Entry(CouponKey(CanonicalMonth(coupons[ps[k]].month), coupons[ps[k]].productCategory),
                         Some(coupons[ps[k]].discountPct.GetOr(0.0)))
  {
    var ps := ReadablePositions(coupons, |coupons|);
    SetIndex(seq(|ps|, k requires 0 <= k < |ps| => CouponKey(CanonicalMonth(coupons[ps[k]].month), coupons[ps[k]].productCategory)),
             seq(|ps|, k requires 0 <= k < |ps| => Some(coupons[ps[k]].discountPct.GetOr(0.0))))
  }

  /** Discount_pct of a sale: the coupon for its canonical month and category, 0 when there is none. */
  function CorrectedDiscountPct(r: SalesRecord, discount: Series<CouponKey, real>): real
  {
    var month := CanonicalMonth(SalesMonthKey(MonthOf(r.transactionDate)));
    if month.None? then 0.0 else Lookup(discount, CouponKey(month, r.productCategory)).GetOr(0.0)
  }

  /** Two coupon rows name the same month, readably, and the same category. */
  predicate DuplicateCouponKey(coupons: seq<CouponRecord>)
  {
    exists i, j :: 0 <= i < j < |coupons| && ReadableMonth(coupons[i]) &&
      CanonicalMonth(coupons[i].month) == CanonicalMonth(coupons[j].month) &&
      coupons[i].productCategory == coupons[j].productCategory
  }

  /** Two lookup entries with one label come from two coupons naming the same month and category. */
  lemma LookupClashIsDuplicate(coupons: seq<CouponRecord>)
    requires !UniqueIndex(CanonicalDiscountLookup(coupons))
    ensures DuplicateCouponKey(coupons)
  {
    var d := CanonicalDiscountLookup(coupons);
    var ps := ReadablePositions(coupons, |coupons|);
    var k, l :| 0 <= k < l < |d| && d[k].key == d[l].key;
    var i, j := ps[k], ps[l];
    assert i < j && ReadableMonth(coupons[i]);
    assert CanonicalMonth(coupons[i].month) == CanonicalMonth(coupons[j].month);
  }

  /** Two coupons naming the same readable month and category give the lookup a repeated label. */
  lemma DuplicateIsLookupClash(coupons: seq<CouponRecord>)
    requires DuplicateCouponKey(coupons)
    ensures !UniqueIndex(CanonicalDiscountLookup(coupons))
  {
    var d := CanonicalDiscountLookup(coupons);
    var ps := ReadablePositions(coupons, |coupons|);
    var i, j :| 0 <= i < j < |coupons| && ReadableMonth(coupons[i]) &&
      CanonicalMonth(coupons[i].month) == CanonicalMonth(coupons[j].month) &&
      coupons[i].productCategory == coupons[j].productCategory;
    var k := ReadablePositionOf(coupons, |coupons|, i);
    var l := ReadablePositionOf(coupons, |coupons|, j);
    assert k < l;
    assert d[k].key == d[l].key;
  }

  lemma CanonicalLookupUnique(coupons: seq<CouponRecord>)
    ensures UniqueIndex(CanonicalDiscountLookup(coupons)) <==> !DuplicateCouponKey(coupons)
  {
    if !UniqueIndex(CanonicalDiscountLookup(coupons)) {
      LookupClashIsDuplicate(coupons);
    }
    if DuplicateCouponKey(coupons) {
      DuplicateIsLookupClash(coupons);
    }
  }

  /** The enriched table with the discount joined on the canonical month; every other column as written. */
  function EnrichCorrected(sales: seq<SalesRecord>, coupons: seq<CouponRecord>, marketing: seq<MarketingRecord>,
                           tax: seq<TaxRecord>): Result<seq<EnrichedRow>, PipelineError>
  {
    var taxLookup := TaxLookup(tax);
    var discountLookup := CanonicalDiscountLookup(coupons);
    var marketingLookup := MarketingLookup(marketing);
    if !UniqueIndex(taxLookup) then Failure(NonUniqueTaxIndex)
    else if !UniqueIndex(discountLookup) then Failure(NonUniqueDiscountIndex)
    else Success(seq(|sales|, i requires 0 <= i < |sales| =>
                       EnrichRow(sales[i], taxLookup, [], marketingLookup).(
                         discountPct := CorrectedDiscountPct(sales[i], discountLookup))))
  }

  /** The lookup holds each readable coupon's discount under its month and category. */
  lemma CanonicalLookupFinds(coupons: seq<CouponRecord>, j: nat)
    requires UniqueIndex(CanonicalDiscountLookup(coupons))
    requires j < |coupons| && ReadableMonth(coupons[j])
    ensures Lookup(CanonicalDiscountLookup(coupons), CouponKey(CanonicalMonth(coupons[j].month), coupons[j].productCategory))
              == Some(coupons[j].discountPct.GetOr(0.0))
  {
    var k := ReadablePositionOf(coupons, |coupons|, j);
    LookupAt(CanonicalDiscountLookup(coupons), k);
  }

  /** A month and category no coupon names is not a label of the lookup. */
  lemma CanonicalLookupMisses(coupons: seq<CouponRecord>, month: int, category: string)
    requires forall j :: 0 <= j < |coupons| ==>
               CanonicalMonth(coupons[j].month) != Some(month) || coupons[j].productCategory != category
    ensures !HasKey(CanonicalDiscountLookup(coupons), CouponKey(Some(month), category))
  {
  }

  /**
   * With the canonical month, a sale takes the discount of the coupon for its
   * month and category, and 0 when no coupon names them.
   */
  lemma CorrectedDiscountApplied(sales: seq<SalesRecord>, coupons: seq<CouponRecord>, marketing: seq<MarketingRecord>,
                                 tax: seq<TaxRecord>, i: nat)
    requires EnrichCorrected(sales, coupons, marketing, tax).Success?
    requires i < |sales| && sales[i].transactionDate.Some?
    ensures var pct := EnrichCorrected(sales, coupons, marketing, tax).value[i].discountPct;
      var month := sales[i].transactionDate.value.month;
      && (forall j :: 0 <= j < |coupons| && CanonicalMonth(coupons[j].month) == Some(month) &&
                      coupons[j].productCategory == sales[i].productCategory ==>
            pct == coupons[j].discountPct.GetOr(0.0))
      && ((forall j :: 0 <= j < |coupons| ==>
             CanonicalMonth(coupons[j].month) != Some(month) || coupons[j].productCategory != sales[i].productCategory) ==>
            pct == 0.0)
  {
    var d := CanonicalDiscountLookup(coupons);
    var month := sales[i].transactionDate.value.month;
    forall j | 0 <= j < |coupons| && CanonicalMonth(coupons[j].month) == Some(month) &&
               coupons[j].productCategory == sales[i].productCategory
      ensures CorrectedDiscountPct(sales[i], d) == coupons[j].discountPct.GetOr(0.0)
    {
      CanonicalLookupFinds(coupons, j);
    }
    if forall j :: 0 <= j < |coupons| ==>
         CanonicalMonth(coupons[j].month) != Some(month) || coupons[j].productCategory != sales[i].productCategory {
      CanonicalLookupMisses(coupons, month, sales[i].productCategory);
    }
  }

  /**
   * Casting a month cell to text does not change the month it means: a
   * number's decimal text reads back as the number (outside 1-12 neither
   * means a month), and "nan" is neither a name nor a decimal.
   */
  lemma {:induction false} CanonicalMonthOfText(k: MonthKey)
    ensures CanonicalMonth(MonthAsText(k)) == CanonicalMonth(k)
  {
    match k
    case MonthText(_) =>
    case MonthNaN =>
      MonthNamesAreCapitalised("nan");
      assert !IsDigit("nan"[0]);
    case MonthNumber(n) =>
      if 1 <= n <= 12 {
        CanonicalMonthAgrees(n);
      } else if n >= 0 {
        ParseDigits(n);
        MonthNamesAreCapitalised(Digits(n));
        assert IsDigit(Digits(n)[0]);
      } else {
        var t := IntText(n);
        MonthNamesAreCapitalised(t);
        assert t[0] == '-';
      }
  }

  /** Two coupon rows whose months mean no month carry the same (Month as text, Product_Category) label. */
  predicate DuplicateUnreadableLabel(coupons: seq<CouponRecord>)
  {
    exists i, j :: 0 <= i < j < |coupons| && !ReadableMonth(coupons[i]) &&
      MonthAsText(coupons[i].month) == MonthAsText(coupons[j].month) &&
      coupons[i].productCategory == coupons[j].productCategory
  }

  /**
   * The correction changes Discount_pct and nothing else. It fails on the
   * tax lookup exactly where the block as written does, and on the coupon
   * lookup exactly where two coupons name the same month and category; when
   * it succeeds, the block as written fails only on a repeated label of
   * coupons whose month means no month.
   */
  lemma CorrectionOnlyChangesDiscount(sales: seq<SalesRecord>, coupons: seq<CouponRecord>, marketing: seq<MarketingRecord>,
                                      tax: seq<TaxRecord>)
    ensures EnrichCorrected(sales, coupons, marketing, tax) == Failure(NonUniqueTaxIndex) <==>
              Enrich(sales, coupons, marketing, tax) == Failure(NonUniqueTaxIndex)
    ensures EnrichCorrected(sales, coupons, marketing, tax).Success? <==> !DuplicateCategory(tax) && !DuplicateCouponKey(coupons)
    ensures EnrichCorrected(sales, coupons, marketing, tax).Success? ==>
              (Enrich(sales, coupons, marketing, tax).Success? <==> !DuplicateUnreadableLabel(coupons))
    ensures EnrichCorrected(sales, coupons, marketing, tax).Success? && Enrich(sales, coupons, marketing, tax).Success? ==>
      var fixed := EnrichCorrected(sales, coupons, marketing, tax).value;
      var asWritten := Enrich(sales, coupons, marketing, tax).value;
      && |fixed| == |asWritten|
      && forall i :: 0 <= i < |fixed| ==> fixed[i] == asWritten[i].(discountPct := fixed[i].discountPct)
  {
    EnrichFailure(sales, coupons, marketing, tax);
    TaxLookupUnique(tax);
    CanonicalLookupUnique(coupons);
    if !DuplicateCategory(tax) && !DuplicateCouponKey(coupons) && DuplicateDiscountLabel(coupons) {
      var i, j :| 0 <= i < j < |coupons| && MonthAsText(coupons[i].month) == MonthAsText(coupons[j].month) &&
        coupons[i].productCategory == coupons[j].productCategory;
      CanonicalMonthOfText(coupons[i].month);
      CanonicalMonthOfText(coupons[j].month);
      assert !ReadableMonth(coupons[i]);
    }
  }

  /**
   * The as-written counterexample, corrected: a dated sale and a coupon for
   * its month, written with two digits ("03", "11"), and its category; the
   * sale gets the coupon's discount.
   */
  lemma CorrectedAppliesZeroPaddedCoupon(sale: SalesRecord, pct: real, tax: seq<TaxRecord>)
    requires sale.transactionDate.Some? && 1 <= sale.transactionDate.value.month <= 12
    requires !DuplicateCategory(tax)
    ensures var coupons := [CouponRecord(MonthText(TwoDigitText(sale.transactionDate.value.month)), sale.productCategory, Some(pct))];
      var result := EnrichCorrected([sale], coupons, [], tax);
      result.Success? && result.value[0].discountPct == pct
  {
    var month := sale.transactionDate.value.month;
    var coupons := [CouponRecord(MonthText(TwoDigitText(month)), sale.productCategory, Some(pct))];
    CanonicalMonthAgrees(month);
    TaxLookupUnique(tax);
    CanonicalLookupUnique(coupons);
    CorrectedDiscountApplied([sale], coupons, [], tax, 0);
  }
}

=== FILE: frames.dfy ===
/**
 * The rows of the four tables the preprocessing block reads, the enriched
 * sales row the analyses read, and the cell-level conversions applied to
 * single values (fillna, astype(str), .dt.year / .dt.month, the spend sum).
 */
module Frames {
  import opened Wrappers

  /** The outcome of `pd.to_datetime` reduced to the fields the core reads. */
  datatype Date = Date(year: int, month: int)

  /**
   * A value of a month column. Sales months are numeric (`.dt.month`, NaN for
   * NaT); the coupon table's month column is whatever the file held, and
   * `astype(str)` turns every one of them into text.
   */
  datatype MonthKey = MonthText(text: string) | MonthNumber(number: int) | MonthNaN

  /** A (Year, Month) index label; either part may be NaN. */
  datatype Period = Period(year: Option<int>, month: Option<int>)

  /** A (Month, Product_Category) index label of the discount join. */
  datatype DiscountKey = DiscountKey(month: MonthKey, category: string)

  /** One row of Online_Sales as loaded (Transaction_Date already parsed). */
  datatype SalesRecord = SalesRecord(
    transactionDate: Option<Date>,
    productCategory: string,
    quantity: int,
    avgPrice: real,
    couponStatus: Option<string>)

  /** One row of Discount_Coupon as loaded. */
  datatype CouponRecord = CouponRecord(month: MonthKey, productCategory: string, discountPct: Option<real>)

  /** One row of Marketing_Spend as loaded (Date already parsed). */
  datatype MarketingRecord = MarketingRecord(date: Option<Date>, offlineSpend: Option<real>, onlineSpend: Option<real>)

  /** One row of Tax_amount as loaded. */
  datatype TaxRecord = TaxRecord(productCategory: string, gst: Option<real>)

  /** One row of `online_sales` after the preprocessing block. */
  datatype EnrichedRow = EnrichedRow(
    transactionDate: Option<Date>,
    productCategory: string,
    quantity: int,
    avgPrice: real,
    couponStatus: Option<string>,
    revenue: real,
    year: Option<int>,
    month: Option<int>,
    gstPct: Option<real>,
    discountPct: real,
    marketingSpend: Option<real>)

  const NoCoupon: string := "No Coupon"

  /** `Quantity * Avg_Price` of one row. */
  function LineRevenue(quantity: int, avgPrice: real): real
  {
    quantity as real * avgPrice
  }

  /** `.dt.year`: NaT gives NaN. */
  function YearOf(d: Option<Date>): (r: Option<int>)
    ensures r.Some? <==> d.Some?
    ensures d.Some? ==> r.value == d.value.year
  {
    match d
    case Some(date) => Some(date.year)
    case None => None
  }

  /** `.dt.month`: NaT gives NaN. */
  function MonthOf(d: Option<Date>): (r: Option<int>)
    ensures r.Some? <==> d.Some?
    ensures d.Some? ==> r.value == d.value.month
  {
    match d
    case Some(date) => Some(date.month)
    case None => None
  }

  /** The (Year, Month) label of a row whose date may be NaT. */
  function PeriodOf(d: Option<Date>): (p: Period)
    ensures p.year.Some? <==> d.Some?
    ensures p.month.Some? <==> d.Some?
    ensures d.Some? ==> p == Period(Some(d.value.year), Some(d.value.month))
  {
    Period(YearOf(d), MonthOf(d))
  }

  /** A groupby with the default `dropna=True` leaves out a label that holds a NaN. */
  function GroupLabel(p: Period): (r: Option<Period>)
    ensures r.Some? <==> p.year.Some? && p.month.Some?
    ensures r.Some? ==> r.value == p
  {
    if p.year.Some? && p.month.Some? then Some(p) else None
  }

  /** The month as a key of the sales side of the discount join: numeric, or NaN. */
  function SalesMonthKey(month: Option<int>): (r: MonthKey)
    ensures !r.MonthText?
    ensures month.Some? <==> r.MonthNumber?
    ensures month.Some? ==> r.number == month.value
  {
    match month
    case Some(m) => MonthNumber(m)
    case None => MonthNaN
  }

  /** `Offline_Spend + Online_Spend`: NaN if either operand is NaN. */
  function SpendTotal(offline: Option<real>, online: Option<real>): (r: Option<real>)
    ensures r.Some? <==> offline.Some? && online.Some?
    ensures r.Some? ==> r.value == offline.value + online.value
  {
    if offline.Some? && online.Some? then Some(offline.value + online.value) else None
  }

  /** The decimal digit characters of a natural number, most significant first. */
  function Digits(n: nat): (r: string)
    ensures |r| > 0
    ensures forall i :: 0 <= i < |r| ==> '0' <= r[i] <= '9'
  {
    if n < 10 then [('0' as int + n) as char] else Digits(n / 10) + [('0' as int + n % 10) as char]
  }

  /** `str(n)` of an integer. */
  function IntText(n: int): (r: string)
    ensures |r| > 0
  {
    if n < 0 then "-" + Digits(-n) else Digits(n)
  }

  /** `astype(str)` of one month cell: every value becomes text, NaN becomes "nan". */
  function MonthAsText(k: MonthKey): (r: MonthKey)
    ensures r.MonthText?
    ensures k.MonthText? ==> r == k
    ensures k.MonthNumber? ==> r.text == IntText(k.number)
    ensures k.MonthNaN? ==> r.text == "nan"
  {
    match k
    case MonthText(s) => k
    case MonthNumber(n) => MonthText(IntText(n))
    case MonthNaN => MonthText("nan")
  }
}

=== FILE: ordering.dfy ===
/**
 * The orders pandas sorts group keys by (`groupby(..., sort=True)`), and the
 * sorted list of distinct keys a groupby produces.
 */
module Ordering {
  import opened Wrappers
  import opened Frames

  ghost predicate StrictTotalOrder<K(!new)>(lt: (K, K) -> bool)
  {
    && (forall a :: !lt(a, a))
    && (forall a, b, c :: lt(a, b) && lt(b, c) ==> lt(a, c))
    && (forall a, b :: a != b ==> lt(a, b) || lt(b, a))
  }

  predicate StrictlySorted<K>(xs: seq<K>, lt: (K, K) -> bool)
  {
    forall i, j :: 0 <= i < j < |xs| ==> lt(xs[i], xs[j])
  }

  predicate Distinct<K(==)>(xs: seq<K>)
  {
    forall i, j :: 0 <= i < j < |xs| ==> xs[i] != xs[j]
  }

  /** Python's `<` on str: code point by code point, a proper prefix first. */
  predicate StrLess(a: string, b: string)
  {
    if |a| == 0 then |b| > 0
    else if |b| == 0 then false
    else if a[0] != b[0] then a[0] < b[0]
    else StrLess(a[1..], b[1..])
  }

  lemma {:induction false} StrLessIrreflexive(a: string)
    ensures !StrLess(a, a)
  {
    if |a| > 0 { StrLessIrreflexive(a[1..]); }
  }

  lemma {:induction false} StrLessTransitive(a: string, b: string, c: string)
    requires StrLess(a, b) && StrLess(b, c)
    ensures StrLess(a, c)
  {
    if |a| > 0 && |b| > 0 && |c| > 0 && a[0] == b[0] == c[0] {
      StrLessTransitive(a[1..], b[1..], c[1..]);
    }
  }

  lemma {:induction false} StrLessConnected(a: string, b: string)
    requires a != b
    ensures StrLess(a, b) || StrLess(b, a)
  {
    if |a| > 0 && |b| > 0 && a[0] == b[0] {
      assert a == [a[0]] + a[1..] && b == [b[0]] + b[1..];
      StrLessConnected(a[1..], b[1..]);
    }
  }

  lemma StrLessIsStrictTotalOrder()
    ensures StrictTotalOrder(StrLess)
  {
    forall a ensures !StrLess(a, a) { StrLessIrreflexive(a); }
    forall a, b, c | StrLess(a, b) && StrLess(b, c) ensures StrLess(a, c) {
      StrLessTransitive(a, b, c);
    }
    forall a, b | a != b ensures StrLess(a, b) || StrLess(b, a) { StrLessConnected(a, b); }
  }

  /** Adds `k` to a strictly sorted list unless it is already there. */
  function Insert<K(==)>(k: K, xs: seq<K>, lt: (K, K) -> bool): seq<K>
  {
    if xs == [] then [k]
    else if k == xs[0] then xs
    else if lt(k, xs[0]) then [k] + xs
    else [xs[0]] + Insert(k, xs[1..], lt)
  }

  lemma {:induction false} InsertSorted<K(!new)>(k: K, xs: seq<K>, lt: (K, K) -> bool)
    requires StrictTotalOrder(lt)
    requires StrictlySorted(xs, lt)
    ensures StrictlySorted(Insert(k, xs, lt), lt)
    ensures forall x :: x in Insert(k, xs, lt) <==> x == k || x in xs
  {
    if xs == [] || k == xs[0] {
    } else if lt(k, xs[0]) {
      var r := [k] + xs;
      forall i, j | 0 <= i < j < |r| ensures lt(r[i], r[j]) {
        if i > 0 {
          assert r[i] == xs[i - 1] && r[j] == xs[j - 1];
        } else if j > 1 {
          assert lt(xs[0], xs[j - 1]);
        }
      }
    } else {
      assert lt(xs[0], k);
      InsertSorted(k, xs[1..], lt);
      var tail := Insert(k, xs[1..], lt);
      var r := [xs[0]] + tail;
      forall i, j | 0 <= i < j < |r| ensures lt(r[i], r[j]) {
        if i > 0 {
          assert r[i] == tail[i - 1] && r[j] == tail[j - 1];
        } else {
          assert r[j] in tail;
          if r[j] != k {
            assert r[j] in xs[1..];
            var m :| 0 <= m < |xs[1..]| && xs[1..][m] == r[j];
            assert xs[m + 1] == r[j];
          }
        }
      }
      forall x ensures x in r <==> x == k || x in xs {
        assert x in xs <==> x == xs[0] || x in xs[1..] by { assert xs == [xs[0]] + xs[1..]; }
      }
    }
  }

  /**
   * The distinct keys of `ks` in ascending order: the groups of a groupby,
   * in the order `sort=True` lists them.
   */
  function SortedDistinct<K(==, !new)>(ks: seq<K>, lt: (K, K) -> bool): (r: seq<K>)
    requires StrictTotalOrder(lt)
    ensures StrictlySorted(r, lt)
    ensures forall k :: k in r <==> k in ks
  {
    if ks == [] then []
    else
      var prefix := SortedDistinct(ks[..|ks| - 1], lt);
      InsertSorted(ks[|ks| - 1], prefix, lt);
      assert forall k :: k in ks <==> k in ks[..|ks| - 1] || k == ks[|ks| - 1] by {
        assert ks == ks[..|ks| - 1] + [ks[|ks| - 1]];
      }
      Insert(ks[|ks| - 1], prefix, lt)
  }

  lemma SortedIsDistinct<K(!new)>(xs: seq<K>, lt: (K, K) -> bool)
    requires StrictTotalOrder(lt)
    requires StrictlySorted(xs, lt)
    ensures Distinct(xs)
  {
  }

  lemma {:induction false} DistinctTail<K>(xs: seq<K>)
    requires xs != [] && Distinct(xs)
    ensures Distinct(xs[1..]) && xs[0] !in xs[1..]
  {
    forall i, j | 0 <= i < j < |xs[1..]| ensures xs[1..][i] != xs[1..][j] {
      assert xs[1..][i] == xs[i + 1] && xs[1..][j] == xs[j + 1];
    }
  }

  /** A sequence is repetition-free exactly when no element occurs twice in its multiset. */
  lemma {:induction false} DistinctMultiplicity<K>(xs: seq<K>)
    ensures Distinct(xs) <==> forall x :: multiset(xs)[x] <= 1
  {
    if xs != [] {
      var t := xs[1..];
      assert xs == [xs[0]] + t;
      DistinctMultiplicity(t);
      if Distinct(xs) {
        DistinctTail(xs);
        forall x ensures multiset(xs)[x] <= 1 {
          assert multiset(xs)[x] == multiset([xs[0]])[x] + multiset(t)[x];
          if x == xs[0] { assert x !in multiset(t); }
        }
      } else {
        var i, j :| 0 <= i < j < |xs| && xs[i] == xs[j];
        if i == 0 {
          assert xs[j] == t[j - 1];
          assert multiset(xs)[xs[0]] >= 2;
        } else {
          assert t[i - 1] == xs[i] && t[j - 1] == xs[j];
          assert !Distinct(t);
          var x :| multiset(t)[x] > 1;
          assert multiset(xs)[x] == multiset([xs[0]])[x] + multiset(t)[x];
        }
      }
    }
  }

  /** A permutation of a repetition-free sequence is repetition-free. */
  lemma DistinctPermutation<K>(xs: seq<K>, ys: seq<K>)
    requires multiset(xs) == multiset(ys)
    requires Distinct(ys)
    ensures Distinct(xs)
  {
    DistinctMultiplicity(xs);
    DistinctMultiplicity(ys);
  }

  /** Numeric order on nullable numbers, NaN first (any fixed placement of NaN would do). */
  predicate OptLess(a: Option<int>, b: Option<int>)
  {
    match (a, b)
    case (None, Some(_)) => true
    case (Some(x), Some(y)) => x < y
    case _ => false
  }

  /** The lexicographic order of (Year, Month) labels. */
  predicate PeriodLess(a: Period, b: Period)
  {
    OptLess(a.year, b.year) || (a.year == b.year && OptLess(a.month, b.month))
  }

  lemma PeriodLessIsStrictTotalOrder()
    ensures StrictTotalOrder(PeriodLess)
  {
  }
}

=== FILE: preprocessing.dfy ===
/**
 * The preprocessing block as the source runs it: four DataFrames mutated in
 * place, one column at a time, then three lookups built from the mutated
 * tables and joined onto the sales table. A DataFrame is an object with one
 * `seq` field per column; every statement of the block is a method that
 * assigns the column it writes and nothing else.
 */
module Preprocessing {
  import opened Wrappers
  import opened Frames
  import opened Series
  import opened Ordering
  import opened Enrichment

  /** The `online_sales` DataFrame. */
  class OnlineSales {
    // Columns as loaded (Transaction_Date already converted by `pd.to_datetime`).
    var transactionDate: seq<Option<Date>>
    var productCategory: seq<string>
    var quantity: seq<int>
    var avgPrice: seq<real>
    var couponStatus: seq<Option<string>>
    // Columns the block adds.
    var revenue: seq<real>
    var year: seq<Option<int>>
    var month: seq<Option<int>>
    var gstPct: seq<Option<real>>
    var discountPct: seq<real>
    var marketingSpend: seq<Option<real>>

    /** All loaded columns have one cell per row. */
    predicate Loaded()
      reads this
    {
      |productCategory| == |quantity| == |avgPrice| == |couponStatus| == |transactionDate|
    }

    /** Every column the block adds is present. */
    predicate Complete()
      reads this
    {
      && Loaded()
      && |revenue| == |year| == |month| == |gstPct| == |discountPct| == |marketingSpend| == |transactionDate|
    }

    /** The loaded columns read row by row. */
    function Records(): (r: seq<SalesRecord>)
      reads this
      requires Loaded()
      ensures |r| == |transactionDate|
      ensures forall i :: 0 <= i < |r| ==>
        r[i] == SalesRecord(transactionDate[i], productCategory[i], quantity[i], avgPrice[i], couponStatus[i])
    {
      var d, c, q, p, s := transactionDate, productCategory, quantity, avgPrice, couponStatus;
      seq(|d|, i requires 0 <= i < |d| && i < |c| && i < |q| && i < |p| && i < |s| =>
        SalesRecord(d[i], c[i], q[i], p[i], s[i]))
    }

    /** The whole table read row by row, as the analyses read it. */
    function Rows(): (r: seq<EnrichedRow>)
      reads this
      requires Complete()
      ensures |r| == |transactionDate|
      ensures forall i :: 0 <= i < |r| ==>
        r[i] == EnrichedRow(transactionDate[i], productCategory[i], quantity[i], avgPrice[i], couponStatus[i],
                            revenue[i], year[i], month[i], gstPct[i], discountPct[i], marketingSpend[i])
    {
      seq(|transactionDate|, i requires 0 <= i < |transactionDate| && Complete() reads this =>
        EnrichedRow(transactionDate[i], productCategory[i], quantity[i], avgPrice[i], couponStatus[i],
                    revenue[i], year[i], month[i], gstPct[i], discountPct[i], marketingSpend[i]))
    }

    /** The columns of `loaded` after lines 82-85: Revenue, Year and Month added, Coupon_Status filled. */
    predicate DerivedFrom(loaded: seq<SalesRecord>)
      reads this
    {
      && Loaded() && |transactionDate| == |loaded|
      && |revenue| == |year| == |month| == |loaded|
      && forall i :: 0 <= i < |loaded| ==>
        && transactionDate[i] == loaded[i].transactionDate
        && productCategory[i] == loaded[i].productCategory
        && quantity[i] == loaded[i].quantity
        && avgPrice[i] == loaded[i].avgPrice
        && couponStatus[i] == Some(loaded[i].couponStatus.GetOr(NoCoupon))
        && revenue[i] == LineRevenue(loaded[i].quantity, loaded[i].avgPrice)
        && year[i] == YearOf(loaded[i].transactionDate)
        && month[i] == MonthOf(loaded[i].transactionDate)
    }

    constructor (records: seq<SalesRecord>)
      ensures Loaded() && Records() == records
      ensures revenue == [] && year == [] && month == [] && gstPct == [] && discountPct == [] && marketingSpend == []
    {
      transactionDate := seq(|records|, i requires 0 <= i < |records| => records[i].transactionDate);
      productCategory := seq(|records|, i requires 0 <= i < |records| => records[i].productCategory);
      quantity := seq(|records|, i requires 0 <= i < |records| => records[i].quantity);
      avgPrice := seq(|records|, i requires 0 <= i < |records| => records[i].avgPrice);
      couponStatus := seq(|records|, i requires 0 <= i < |records| => records[i].couponStatus);
      revenue, year, month := [], [], [];
      gstPct, discountPct, marketingSpend := [], [], [];
    }

    /** `online_sales["Revenue"] = Quantity * Avg_Price` (line 82). */
    method AddRevenue()
      requires Loaded()
      modifies this`revenue
      ensures |revenue| == |quantity|
      ensures forall i :: 0 <= i < |revenue| ==> revenue[i] == LineRevenue(quantity[i], avgPrice[i])
    {
      var q, p := quantity, avgPrice;
      revenue := seq(|q|, i requires 0 <= i < |q| && i < |p| => LineRevenue(q[i], p[i]));
    }

    /** `Year` and `Month` from `Transaction_Date.dt` (lines 83-84). */
    method AddYearMonth()
      modifies this`year, this`month
      ensures |year| == |month| == |transactionDate|
      ensures forall i :: 0 <= i < |year| ==> year[i] == YearOf(transactionDate[i]) && month[i] == MonthOf(transactionDate[i])
    {
      var d := transactionDate;
      year := seq(|d|, i requires 0 <= i < |d| => YearOf(d[i]));
      month := seq(|d|, i requires 0 <= i < |d| => MonthOf(d[i]));
    }

    /** `Coupon_Status.fillna("No Coupon")` (line 85). */
    method FillCouponStatus()
      modifies this`couponStatus
      ensures |couponStatus| == old(|couponStatus|)
      ensures forall i :: 0 <= i < |couponStatus| ==> couponStatus[i] == Some(old(couponStatus[i]).GetOr(NoCoupon))
    {
      var s := couponStatus;
      couponStatus := seq(|s|, i requires 0 <= i < |s| => Some(s[i].GetOr(NoCoupon)));
    }

    /** `Product_Category.map(tax_lookup)` (line 112); fails if the lookup's index repeats a key. */
    method AddGstPct(taxLookup: Series<string, real>) returns (ok: bool)
      modifies this`gstPct
      ensures ok <==> UniqueIndex(taxLookup)
      ensures ok ==> |gstPct| == |productCategory|
      ensures ok ==> forall i :: 0 <= i < |gstPct| ==> gstPct[i] == Lookup(taxLookup, productCategory[i])
      ensures !ok ==> gstPct == old(gstPct)
    {
      var mapped := MapThrough(productCategory, taxLookup);
      ok := mapped.Success?;
      if ok {
        gstPct := mapped.value;
      }
    }

    /**
     * The (Month, Product_Category) index mapped through the discount lookup,
     * then `fillna(0)` (lines 114-119); fails if the lookup's index repeats a key.
     */
    method AddDiscountPct(discountLookup: Series<DiscountKey, real>) returns (ok: bool)
      requires |month| == |productCategory|
      modifies this`discountPct
      ensures ok <==> UniqueIndex(discountLookup)
      ensures ok ==> |discountPct| == |productCategory|
      ensures ok ==> forall i :: 0 <= i < |discountPct| ==>
        discountPct[i] == Lookup(discountLookup, DiscountKey(SalesMonthKey(month[i]), productCategory[i])).GetOr(0.0)
      ensures !ok ==> discountPct == old(discountPct)
    {
      var m, c := month, productCategory;
      var index := seq(|m|, i requires 0 <= i < |m| && i < |c| => DiscountKey(SalesMonthKey(m[i]), c[i]));
      var mapped := MapThrough(index, discountLookup);
      ok := mapped.Success?;
      if ok {
        var v := mapped.value;
        discountPct := seq(|v|, i requires 0 <= i < |v| => v[i].GetOr(0.0));
      }
    }

    /** The (Year, Month) index mapped through the marketing lookup, with no fill (lines 121-125). */
    method AddMarketingSpend(marketingLookup: Series<Period, real>) returns (ok: bool)
      requires |year| == |month|
      modifies this`marketingSpend
      ensures ok <==> UniqueIndex(marketingLookup)
      ensures ok ==> |marketingSpend| == |year|
      ensures ok ==> forall i :: 0 <= i < |marketingSpend| ==>
        marketingSpend[i] == Lookup(marketingLookup, Period(year[i], month[i]))
      ensures !ok ==> marketingSpend == old(marketingSpend)
    {
      var y, m := year, month;
      var index := seq(|y|, i requires 0 <= i < |y| && i < |m| => Period(y[i], m[i]));
      var mapped := MapThrough(index, marketingLookup);
      ok := mapped.Success?;
      if ok {
        marketingSpend := mapped.value;
      }
    }

    /** Lines 82-85: the columns computed from the sales table alone. */
    method DeriveColumns()
      requires Loaded()
      modifies this`revenue, this`year, this`month, this`couponStatus
      ensures Loaded()
      ensures |revenue| == |year| == |month| == |transactionDate|
      ensures forall i :: 0 <= i < |transactionDate| ==>
        && revenue[i] == LineRevenue(quantity[i], avgPrice[i])
        && year[i] == YearOf(transactionDate[i])
        && month[i] == MonthOf(transactionDate[i])
        && couponStatus[i] == Some(old(couponStatus[i]).GetOr(NoCoupon))
      ensures DerivedFrom(old(Records()))
    {
      AddRevenue();
      AddYearMonth();
      FillCouponStatus();
    }

    /**
     * Lines 112-125: the three joins in order; the block stops at the first
     * `.map` whose lookup repeats a key. The marketing lookup, a groupby
     * result, never does.
     */
    method Join(taxLookup: Series<string, real>, discountLookup: Series<DiscountKey, real>,
                marketingLookup: Series<Period, real>, ghost loaded: seq<SalesRecord>) returns (error: Option<PipelineError>)
      requires DerivedFrom(loaded)
      requires UniqueIndex(marketingLookup)
      modifies this`gstPct, this`discountPct, this`marketingSpend
      ensures DerivedFrom(loaded)
      ensures error == Some(NonUniqueTaxIndex) <==> !UniqueIndex(taxLookup)
      ensures error == Some(NonUniqueDiscountIndex) <==> UniqueIndex(taxLookup) && !UniqueIndex(discountLookup)
      ensures error.None? <==> UniqueIndex(taxLookup) && UniqueIndex(discountLookup)
      ensures error.None? ==> Complete()
      ensures error.None? ==> forall i :: 0 <= i < |transactionDate| ==>
        && gstPct[i] == Lookup(taxLookup, productCategory[i])
        && discountPct[i] == Lookup(discountLookup, DiscountKey(SalesMonthKey(month[i]), productCategory[i])).GetOr(0.0)
        && marketingSpend[i] == Lookup(marketingLookup, Period(year[i], month[i]))
      ensures error == Some(NonUniqueTaxIndex) ==>
        gstPct == old(gstPct) && discountPct == old(discountPct) && marketingSpend == old(marketingSpend)
      ensures error == Some(NonUniqueDiscountIndex) ==>
        && |gstPct| == |transactionDate|
        && (forall i :: 0 <= i < |transactionDate| ==> gstPct[i] == Lookup(taxLookup, productCategory[i]))
        && discountPct == old(discountPct) && marketingSpend == old(marketingSpend)
    {
      var ok := AddGstPct(taxLookup);
      if !ok {
        return Some(NonUniqueTaxIndex);
      }
      ok := AddDiscountPct(discountLookup);
      if !ok {
        return Some(NonUniqueDiscountIndex);
      }
      ok := AddMarketingSpend(marketingLookup);
      error := None;
    }
  }

  /** The `discount_coupon` DataFrame. */
  class DiscountCoupon {
    var month: seq<MonthKey>
    var productCategory: seq<string>
    var discountPct: seq<Option<real>>

    predicate Loaded()
      reads this
    {
      |productCategory| == |discountPct| == |month|
    }

    function Records(): (r: seq<CouponRecord>)
      reads this
      requires Loaded()
      ensures |r| == |month|
      ensures forall i :: 0 <= i < |r| ==> r[i] == CouponRecord(month[i], productCategory[i], discountPct[i])
    {
      var m, c, d := month, productCategory, discountPct;
      seq(|m|, i requires 0 <= i < |m| && i < |c| && i < |d| => CouponRecord(m[i], c[i], d[i]))
    }

    /** The table loaded as `loaded` after lines 87-88: Month as text, NaN discounts filled with 0. */
    predicate CleanedFrom(loaded: seq<CouponRecord>)
      reads this
    {
      && Loaded() && |month| == |loaded|
      && forall i :: 0 <= i < |loaded| ==>
        && month[i] == MonthAsText(loaded[i].month)
        && productCategory[i] == loaded[i].productCategory
        && discountPct[i] == Some(loaded[i].discountPct.GetOr(0.0))
    }

    constructor (records: seq<CouponRecord>)
      ensures Loaded() && Records() == records
    {
      month := seq(|records|, i requires 0 <= i < |records| => records[i].month);
      productCategory := seq(|records|, i requires 0 <= i < |records| => records[i].productCategory);
      discountPct := seq(|records|, i requires 0 <= i < |records| => records[i].discountPct);
    }

    /** `Month.astype(str)` (line 87). */
    method CastMonthToText()
      modifies this`month
      ensures |month| == old(|month|)
      ensures forall i :: 0 <= i < |month| ==> month[i] == MonthAsText(old(month[i]))
    {
      var m := month;
      month := seq(|m|, i requires 0 <= i < |m| => MonthAsText(m[i]));
    }

    /** `Discount_pct.fillna(0)` (line 88). */
    method FillDiscount()
      modifies this`discountPct
      ensures |discountPct| == old(|discountPct|)
      ensures forall i :: 0 <= i < |discountPct| ==> discountPct[i] == Some(old(discountPct[i]).GetOr(0.0))
    {
      var d := discountPct;
      discountPct := seq(|d|, i requires 0 <= i < |d| => Some(d[i].GetOr(0.0)));
    }

    /** `set_index(["Month", "Product_Category"])["Discount_pct"]` (lines 104-106). */
    function IndexByMonthAndCategory(): (s: Series<DiscountKey, real>)
      reads this
      requires Loaded()
      ensures |s| == |month|
      ensures forall i :: 0 <= i < |s| ==> s[i] == Entry(DiscountKey(month[i], productCategory[i]), discountPct[i])
    {
      var m, c := month, productCategory;
      SetIndex(seq(|m|, i requires 0 <= i < |m| && i < |c| => DiscountKey(m[i], c[i])), discountPct)
    }
  }

  /** The `marketing_spend` DataFrame. */
  class MarketingSpend {
    // Columns as loaded (Date already converted by `pd.to_datetime`).
    var date: seq<Option<Date>>
    var offlineSpend: seq<Option<real>>
    var onlineSpend: seq<Option<real>>
    // Columns the block adds.
    var year: seq<Option<int>>
    var month: seq<Option<int>>
    var totalMarketingSpend: seq<Option<real>>

    predicate Loaded()
      reads this
    {
      |offlineSpend| == |onlineSpend| == |date|
    }

    function Records(): (r: seq<MarketingRecord>)
      reads this
      requires Loaded()
      ensures |r| == |date|
      ensures forall i :: 0 <= i < |r| ==> r[i] == MarketingRecord(date[i], offlineSpend[i], onlineSpend[i])
    {
      var d, off, on := date, offlineSpend, onlineSpend;
      seq(|d|, i requires 0 <= i < |d| && i < |off| && i < |on| => MarketingRecord(d[i], off[i], on[i]))
    }

    /** The table loaded as `loaded` after lines 90-95: Year, Month and Total_Marketing_Spend added. */
    predicate CleanedFrom(loaded: seq<MarketingRecord>)
      reads this
    {
      && Loaded() && |date| == |loaded|
      && |year| == |month| == |totalMarketingSpend| == |loaded|
      && forall i :: 0 <= i < |loaded| ==>
        && date[i] == loaded[i].date
        && offlineSpend[i] == loaded[i].offlineSpend
        && onlineSpend[i] == loaded[i].onlineSpend
        && year[i] == YearOf(loaded[i].date)
        && month[i] == MonthOf(loaded[i].date)
        && totalMarketingSpend[i] == SpendTotal(loaded[i].offlineSpend, loaded[i].onlineSpend)
    }

    constructor (records: seq<MarketingRecord>)
      ensures Loaded() && Records() == records
      ensures year == [] && month == [] && totalMarketingSpend == []
    {
      date := seq(|records|, i requires 0 <= i < |records| => records[i].date);
      offlineSpend := seq(|records|, i requires 0 <= i < |records| => records[i].offlineSpend);
      onlineSpend := seq(|records|, i requires 0 <= i < |records| => records[i].onlineSpend);
      year, month, totalMarketingSpend := [], [], [];
    }

    /** `Year` and `Month` from `Date.dt` (lines 91-92). */
    method AddYearMonth()
      modifies this`year, this`month
      ensures |year| == |month| == |date|
      ensures forall i :: 0 <= i < |year| ==> year[i] == YearOf(date[i]) && month[i] == MonthOf(date[i])
    {
      var d := date;
      year := seq(|d|, i requires 0 <= i < |d| => YearOf(d[i]));
      month := seq(|d|, i requires 0 <= i < |d| => MonthOf(d[i]));
    }

    /** `Total_Marketing_Spend = Offline_Spend + Online_Spend` (lines 93-95). */
    method AddTotal()
      requires Loaded()
      modifies this`totalMarketingSpend
      ensures |totalMarketingSpend| == |date|
      ensures forall i :: 0 <= i < |totalMarketingSpend| ==>
        totalMarketingSpend[i] == SpendTotal(offlineSpend[i], onlineSpend[i])
    {
      var off, on := offlineSpend, onlineSpend;
      totalMarketingSpend := seq(|off|, i requires 0 <= i < |off| && i < |on| => SpendTotal(off[i], on[i]));
    }

    /** `groupby(["Year", "Month"])["Total_Marketing_Spend"].sum()` (lines 108-110). */
    function SumByPeriod(): (s: Series<Period, real>)
      reads this
      requires |year| == |month| == |totalMarketingSpend|
      ensures UniqueIndex(s)
    {
      var y, m := year, month;
      PeriodLessIsStrictTotalOrder();
      GroupSum(seq(|y|, i requires 0 <= i < |y| && i < |m| => GroupLabel(Period(y[i], m[i]))), totalMarketingSpend, PeriodLess)
    }
  }

  /** The `tax_amount` DataFrame. */
  class TaxAmount {
    var productCategory: seq<string>
    var gst: seq<Option<real>>

    predicate Loaded()
      reads this
    {
      |gst| == |productCategory|
    }

    function Records(): (r: seq<TaxRecord>)
      reads this
      requires Loaded()
      ensures |r| == |productCategory|
      ensures forall i :: 0 <= i < |r| ==> r[i] == TaxRecord(productCategory[i], gst[i])
    {
      var c, g := productCategory, gst;
      seq(|c|, i requires 0 <= i < |c| && i < |g| => TaxRecord(c[i], g[i]))
    }

    /** The table loaded as `loaded` after line 97: NaN GST filled with 0. */
    predicate CleanedFrom(loaded: seq<TaxRecord>)
      reads this
    {
      && Loaded() && |productCategory| == |loaded|
      && forall i :: 0 <= i < |loaded| ==>
        productCategory[i] == loaded[i].productCategory && gst[i] == Some(loaded[i].gst.GetOr(0.0))
    }

    constructor (records: seq<TaxRecord>)
      ensures Loaded() && Records() == records
    {
      productCategory := seq(|records|, i requires 0 <= i < |records| => records[i].productCategory);
      gst := seq(|records|, i requires 0 <= i < |records| => records[i].gst);
    }

    /** `GST.fillna(0)` (line 97). */
    method FillGst()
      modifies this`gst
      ensures |gst| == old(|gst|)
      ensures forall i :: 0 <= i < |gst| ==> gst[i] == Some(old(gst[i]).GetOr(0.0))
    {
      var g := gst;
      gst := seq(|g|, i requires 0 <= i < |g| => Some(g[i].GetOr(0.0)));
    }

    /** `set_index("Product_Category")["GST"]` (line 102). */
    function IndexByCategory(): (s: Series<string, real>)
      reads this
      requires Loaded()
      ensures |s| == |productCategory|
      ensures forall i :: 0 <= i < |s| ==> s[i] == Entry(productCategory[i], gst[i])
    {
      SetIndex(productCategory, gst)
    }
  }

  /** The tax lookup read off the cleaned columns is the one `Enrich` builds from the loaded rows. */
  lemma TaxIndexIsTaxLookup(s: Series<string, real>, loaded: seq<TaxRecord>)
    requires |s| == |loaded|
    requires forall i :: 0 <= i < |s| ==> s[i] == Entry(loaded[i].productCategory, Some(loaded[i].gst.GetOr(0.0)))
    ensures s == TaxLookup(loaded)
  {
  }

  /** The discount lookup read off the cleaned columns is the one `Enrich` builds from the loaded rows. */
  lemma DiscountIndexIsDiscountLookup(s: Series<DiscountKey, real>, loaded: seq<CouponRecord>)
    requires |s| == |loaded|
    requires forall i :: 0 <= i < |s| ==>
      s[i] == Entry(DiscountKey(MonthAsText(loaded[i].month), loaded[i].productCategory), Some(loaded[i].discountPct.GetOr(0.0)))
    ensures s == DiscountLookup(loaded)
  {
  }

  /** The marketing groupby over the added columns is the one `Enrich` builds from the loaded rows. */
  lemma PeriodSumIsMarketingLookup(year: seq<Option<int>>, month: seq<Option<int>>, total: seq<Option<real>>,
                                   loaded: seq<MarketingRecord>)
    requires |year| == |month| == |total| == |loaded|
    requires forall i :: 0 <= i < |loaded| ==>
      year[i] == YearOf(loaded[i].date) && month[i] == MonthOf(loaded[i].date) &&
      total[i] == SpendTotal(loaded[i].offlineSpend, loaded[i].onlineSpend)
    ensures StrictTotalOrder(PeriodLess)
    ensures GroupSum(seq(|year|, i requires 0 <= i < |year| && i < |month| => GroupLabel(Period(year[i], month[i]))), total, PeriodLess)
      == MarketingLookup(loaded)
  {
    PeriodLessIsStrictTotalOrder();
    assert total == MarketingTotals(loaded);
    assert seq(|year|, i requires 0 <= i < |year| && i < |month| => GroupLabel(Period(year[i], month[i]))) == MarketingLabels(loaded);
  }

  /** Columns that agree row by row with `EnrichRow` make up the table `Enrich` returns. */
  lemma RowsAreEnriched(sales: OnlineSales, loaded: seq<SalesRecord>,
                        tax: Series<string, real>, discount: Series<DiscountKey, real>, marketing: Series<Period, real>)
    requires sales.Complete() && sales.DerivedFrom(loaded)
    requires forall i :: 0 <= i < |loaded| ==>
      && sales.gstPct[i] == Lookup(tax, sales.productCategory[i])
      && sales.discountPct[i] == Lookup(discount, DiscountKey(SalesMonthKey(sales.month[i]), sales.productCategory[i])).GetOr(0.0)
      && sales.marketingSpend[i] == Lookup(marketing, Period(sales.year[i], sales.month[i]))
    ensures sales.Rows() == seq(|loaded|, i requires 0 <= i < |loaded| => EnrichRow(loaded[i], tax, discount, marketing))
  {
    forall i | 0 <= i < |loaded| ensures sales.Rows()[i] == EnrichRow(loaded[i], tax, discount, marketing) {
    }
  }

  /**
   * Lines 87-110: the side tables cleaned in place and the three lookups
   * built from them, equal to the lookups `Enrich` builds from the loaded rows.
   */
  method BuildLookups(coupons: DiscountCoupon, marketing: MarketingSpend, tax: TaxAmount)
    returns (taxLookup: Series<string, real>, discountLookup: Series<DiscountKey, real>,
             marketingLookup: Series<Period, real>)
    requires coupons.Loaded() && marketing.Loaded() && tax.Loaded()
    modifies coupons, marketing, tax
    ensures taxLookup == TaxLookup(old(tax.Records()))
    ensures discountLookup == DiscountLookup(old(coupons.Records()))
    ensures marketingLookup == MarketingLookup(old(marketing.Records()))
    ensures UniqueIndex(marketingLookup)
    ensures coupons.CleanedFrom(old(coupons.Records()))
    ensures marketing.CleanedFrom(old(marketing.Records()))
    ensures tax.CleanedFrom(old(tax.Records()))
  {
    ghost var couponsIn, marketingIn, taxIn := coupons.Records(), marketing.Records(), tax.Records();
    coupons.CastMonthToText();
    coupons.FillDiscount();
    marketing.AddYearMonth();
    marketing.AddTotal();
    tax.FillGst();

    taxLookup := tax.IndexByCategory();
    TaxIndexIsTaxLookup(taxLookup, taxIn);
    discountLookup := coupons.IndexByMonthAndCategory();
    DiscountIndexIsDiscountLookup(discountLookup, couponsIn);
    marketingLookup := marketing.SumByPeriod();
    PeriodSumIsMarketingLookup(marketing.year, marketing.month, marketing.totalMarketingSpend, marketingIn);
  }

  /**
   * Lines 79-125 in order. On success `online_sales` holds the enriched
   * table `Enrich` describes; when a `.map` raises, the block stops there
   * with that error, as the script does.
   */
  method Preprocess(sales: OnlineSales, coupons: DiscountCoupon, marketing: MarketingSpend, tax: TaxAmount)
    returns (error: Option<PipelineError>)
    requires sales.Loaded() && coupons.Loaded() && marketing.Loaded() && tax.Loaded()
    modifies sales, coupons, marketing, tax
    ensures var expected := Enrich(old(sales.Records()), old(coupons.Records()), old(marketing.Records()),
                                   old(tax.Records()));
      && (error.None? <==> expected.Success?)
      && (error.Some? ==> expected == Failure(error.value))
      && (error.None? ==> sales.Complete() && sales.Rows() == expected.value)
    ensures sales.DerivedFrom(old(sales.Records()))
    ensures error == Some(NonUniqueTaxIndex) ==>
      && sales.gstPct == old(sales.gstPct)
      && sales.discountPct == old(sales.discountPct)
      && sales.marketingSpend == old(sales.marketingSpend)
    ensures error == Some(NonUniqueDiscountIndex) ==>
      && |sales.gstPct| == |sales.transactionDate|
      && (forall i :: 0 <= i < |sales.transactionDate| ==>
            sales.gstPct[i] == Lookup(TaxLookup(old(tax.Records())), sales.productCategory[i]))
      && sales.discountPct == old(sales.discountPct)
      && sales.marketingSpend == old(sales.marketingSpend)
    ensures coupons.CleanedFrom(old(coupons.Records()))
    ensures marketing.CleanedFrom(old(marketing.Records()))
    ensures tax.CleanedFrom(old(tax.Records()))
  {
    ghost var salesIn := sales.Records();
    sales.DeriveColumns();
    var taxLookup, discountLookup, marketingLookup := BuildLookups(coupons, marketing, tax);
    error := sales.Join(taxLookup, discountLookup, marketingLookup, salesIn);
    if error.None? {
      RowsAreEnriched(sales, salesIn, taxLookup, discountLookup, marketingLookup);
    }
  }
}

=== FILE: routing.dfy ===
/**
 * What happens to a question: the language model's reply is normalised to
 * an intent name, the intent picks one analysis from the registry, and the
 * analysis result is cut to a 20-row preview and a 5-row sample for the
 * explanation. The model's replies are parameters: `response` is whatever
 * text the classification call returned, and `explain` stands for the
 * explanation call as a function of the question and the sample it is shown.
 */
module Routing {
  import opened Wrappers
  import opened Frames
  import Analyses

  // ----- str.strip() and str.lower() -----

  /** Python's `str.isspace` on one character: the characters `strip()` removes. */
  predicate IsSpace(c: char)
  {
    || ('\t' <= c <= '\r')
    || ('\U{1C}' <= c <= '\U{1F}')
    || c == ' ' || c == '\U{85}' || c == '\U{A0}' || c == '\U{1680}'
    || ('\U{2000}' <= c <= '\U{200A}')
    || c == '\U{2028}' || c == '\U{2029}' || c == '\U{202F}' || c == '\U{205F}' || c == '\U{3000}'
  }

  predicate AllSpace(s: string)
  {
    forall i :: 0 <= i < |s| ==> IsSpace(s[i])
  }

  /** The length of the longest all-whitespace prefix of `s`. */
  function LeadingSpace(s: string): (n: nat)
    ensures n <= |s|
    ensures forall i :: 0 <= i < n ==> IsSpace(s[i])
    ensures n == |s| || !IsSpace(s[n])
  {
    if |s| > 0 && IsSpace(s[0]) then
      var n := LeadingSpace(s[1..]);
      assert forall i :: 1 <= i < n + 1 ==> s[i] == s[1..][i - 1];
      n + 1
    else 0
  }

  /** The length of the longest all-whitespace suffix of `s`. */
  function TrailingSpace(s: string): (n: nat)
    ensures n <= |s|
    ensures forall i :: |s| - n <= i < |s| ==> IsSpace(s[i])
    ensures n == |s| || !IsSpace(s[|s| - n - 1])
  {
    if |s| > 0 && IsSpace(s[|s| - 1]) then
      var t := s[..|s| - 1];
      var n := TrailingSpace(t);
      assert forall i :: |s| - (n + 1) <= i < |s| - 1 ==> s[i] == t[i];
      n + 1
    else 0
  }

  /** `r` sits at offset `i` of `s`, with only whitespace before and after it. */
  predicate PaddedAt(s: string, r: string, i: nat)
  {
    && i + |r| <= |s|
    && s[i..i + |r|] == r
    && (forall k :: 0 <= k < i ==> IsSpace(s[k]))
    && (forall k :: i + |r| <= k < |s| ==> IsSpace(s[k]))
  }

  /** `str.strip()`: the text without its leading and trailing whitespace. */
  function Strip(s: string): (r: string)
    ensures r == [] || (!IsSpace(r[0]) && !IsSpace(r[|r| - 1]))
    ensures exists i :: PaddedAt(s, r, i)
  {
    var i := LeadingSpace(s);
    var t := s[i..];
    var n := TrailingSpace(t);
    var r := t[..|t| - n];
    assert s[i..i + |r|] == r;
    assert forall k :: i + |r| <= k < |s| ==> s[k] == t[k - i];
    assert PaddedAt(s, r, i);
    r
  }

  /** The whitespace prefix is determined by where the first non-space character sits. */
  lemma LeadingSpaceIs(s: string, n: nat)
    requires n <= |s|
    requires forall i :: 0 <= i < n ==> IsSpace(s[i])
    requires n == |s| || !IsSpace(s[n])
    ensures LeadingSpace(s) == n
  {
    var m := LeadingSpace(s);
    assert m < |s| ==> !IsSpace(s[m]);
  }

  /** The whitespace suffix is determined by where the last non-space character sits. */
  lemma TrailingSpaceIs(s: string, n: nat)
    requires n <= |s|
    requires forall i :: |s| - n <= i < |s| ==> IsSpace(s[i])
    requires n == |s| || !IsSpace(s[|s| - n - 1])
    ensures TrailingSpace(s) == n
  {
    var m := TrailingSpace(s);
    assert m < |s| ==> !IsSpace(s[|s| - m - 1]);
  }

  /** Whitespace around a text that does not itself start or end with whitespace is exactly what `strip()` removes. */
  lemma StripPadding(pre: string, s: string, post: string)
    requires AllSpace(pre) && AllSpace(post)
    requires s == [] || (!IsSpace(s[0]) && !IsSpace(s[|s| - 1]))
    ensures Strip(pre + s + post) == s
  {
    var x := pre + s + post;
    assert forall i :: 0 <= i < |pre| ==> x[i] == pre[i];
    assert forall i :: |pre| + |s| <= i < |x| ==> x[i] == post[i - |pre| - |s|];
    if s == [] {
      LeadingSpaceIs(x, |x|);
    } else {
      assert x[|pre|] == s[0];
      LeadingSpaceIs(x, |pre|);
      var t := x[|pre|..];
      assert t == s + post;
      assert forall i :: |t| - |post| <= i < |t| ==> t[i] == post[i - |s|];
      assert t[|t| - |post| - 1] == s[|s| - 1];
      TrailingSpaceIs(t, |post|);
      assert t[..|t| - |post|] == s;
    }
  }

  /** `str.lower()` on ASCII letters. */
  function LowerChar(c: char): char
  {
    if 'A' <= c <= 'Z' then (c as int + 32) as char else c
  }

  function Lower(s: string): string
  {
    seq(|s|, i requires 0 <= i < |s| => LowerChar(s[i]))
  }

  /** Lower-casing leaves no capital letter behind, and lower-casing twice changes nothing more. */
  lemma LowerIsLowerCase(s: string)
    ensures forall i :: 0 <= i < |s| ==> !('A' <= Lower(s)[i] <= 'Z')
    ensures Lower(Lower(s)) == Lower(s)
  {
  }

  // ----- The analysis registry -----

  datatype Analysis = SalesTrend | UnderperformingProducts | DiscountVsRevenue

  /** The registry: intent name to analysis. */
  const IntentToAnalysis: map<string, Analysis> := map[
    "sales_trend" := SalesTrend,
    "underperforming_products" := UnderperformingProducts,
    "discount_vs_revenue" := DiscountVsRevenue
  ]

  const Unknown: string := "unknown"

  /**
   * The end of the classification call: the reply, stripped and lower-cased,
   * if that is a registered intent name, and "unknown" otherwise.
   */
  function Classify(response: string): (intent: string)
    ensures intent == Unknown || intent in IntentToAnalysis
    ensures intent in IntentToAnalysis <==> Lower(Strip(response)) in IntentToAnalysis
    ensures intent in IntentToAnalysis ==> intent == Lower(Strip(response))
  {
    var normalised := Lower(Strip(response));
    if normalised in IntentToAnalysis then normalised else Unknown
  }

  /** "unknown" names no analysis, and the registry holds exactly the three analyses. */
  lemma RegistryHasThreeIntents()
    ensures Unknown !in IntentToAnalysis
    ensures IntentToAnalysis.Keys == {"sales_trend", "underperforming_products", "discount_vs_revenue"}
    ensures forall a: Analysis :: a in IntentToAnalysis.Values
  {
    forall a: Analysis ensures a in IntentToAnalysis.Values {
      match a
      case SalesTrend => assert IntentToAnalysis["sales_trend"] == a;
      case UnderperformingProducts => assert IntentToAnalysis["underperforming_products"] == a;
      case DiscountVsRevenue => assert IntentToAnalysis["discount_vs_revenue"] == a;
    }
    assert IntentToAnalysis["sales_trend"] == SalesTrend;
    assert IntentToAnalysis["underperforming_products"] == UnderperformingProducts;
    assert IntentToAnalysis["discount_vs_revenue"] == DiscountVsRevenue;
  }

  /** A registered name, in any ASCII capitalisation and with any whitespace around it, is recognised. */
  lemma ClassifyPaddedIntent(pre: string, reply: string, post: string)
    requires AllSpace(pre) && AllSpace(post)
    requires Lower(reply) in IntentToAnalysis
    ensures Classify(pre + reply + post) == Lower(reply)
  {
    var k := Lower(reply);
    assert k[0] == LowerChar(reply[0]) && k[|k| - 1] == LowerChar(reply[|reply| - 1]);
    assert !IsSpace(k[0]) && !IsSpace(k[|k| - 1]);
    StripPadding(pre, reply, post);
  }

  /** Only texts of 11, 19 or 24 characters can be registered names. */
  lemma RegisteredLengths(s: string)
    ensures s in IntentToAnalysis ==> |s| == 11 || |s| == 19 || |s| == 24
  {
  }

  /** The reply " Sales_Trend" followed by a newline classifies as `sales_trend`. */
  lemma ClassifyPaddedMixedCase()
    ensures Classify(" " + "Sales_Trend" + "\n") == "sales_trend"
  {
    var reply := "Sales_Trend";
    var l := Lower(reply);
    assert l[0] == 's' && l[1] == 'a' && l[2] == 'l' && l[3] == 'e' && l[4] == 's' && l[5] == '_';
    assert l[6] == 't' && l[7] == 'r' && l[8] == 'e' && l[9] == 'n' && l[10] == 'd';
    assert l == "sales_trend";
    ClassifyPaddedIntent(" ", reply, "\n");
  }

  /** Anything beyond the bare intent name makes the reply "unknown". */
  lemma ClassifyExtraWords()
    ensures Classify("sales_trend please") == Unknown
  {
    var reply := "sales_trend please";
    StripPadding([], reply, []);
    assert [] + reply + [] == reply;
    RegisteredLengths(Lower(reply));
  }

  /** A reply of "unknown" stays "unknown". */
  lemma ClassifyUnknown()
    ensures Classify("UNKNOWN") == Unknown
  {
    var reply := "UNKNOWN";
    StripPadding([], reply, []);
    assert [] + reply + [] == reply;
    RegisteredLengths(Lower(reply));
  }

  // ----- Dispatch -----

  /** An analysis result: one of the three table shapes. */
  datatype Table =
    | TrendTable(trend: seq<Analyses.TrendRow>)
    | PerformanceTable(performance: seq<Analyses.CategoryPerformance>)
    | DiscountTable(discount: seq<Analyses.CategoryDiscount>)

  function RowCount(t: Table): nat
  {
    match t
    case TrendTable(rs) => |rs|
    case PerformanceTable(rs) => |rs|
    case DiscountTable(rs) => |rs|
  }

  /** A result DataFrame: its rows and the labels of its index. */
  datatype Frame = Frame(table: Table, index: seq<nat>)

  /** The position of `c` in `cs`, or `|cs|` when it is absent. */
  function PositionIn(cs: seq<string>, c: string): (p: nat)
    ensures p <= |cs|
    ensures p < |cs| <==> c in cs
    ensures p < |cs| ==> cs[p] == c && c !in cs[..p]
  {
    if cs == [] then 0
    else if cs[0] == c then 0
    else
      var p := PositionIn(cs[1..], c);
      assert cs[1..][..p] == cs[1..p + 1];
      assert cs == [cs[0]] + cs[1..];
      assert p < |cs[1..]| ==> cs[..p + 1] == [cs[0]] + cs[1..][..p];
      1 + p
  }

  /** The index 0, 1, ..., n - 1 that `reset_index()` gives a table of n rows. */
  function Positions(n: nat): seq<nat>
  {
    seq(n, i requires 0 <= i < n => i)
  }

  /**
   * `INTENT_TO_ANALYSIS[intent](online_sales)` once the intent has been looked
   * up. `sales_trend` and `discount_vs_revenue` end with `reset_index()`, so
   * their index counts rows. `underperforming_products` resets the index
   * before `sort_values`, so each row keeps its position among the
   * categories in group order.
   */
  function Run(a: Analysis, rows: seq<EnrichedRow>): Frame
  {
    match a
    case SalesTrend =>
      var t := Analyses.SalesTrend(rows);
      Frame(TrendTable(t), Positions(|t|))
    case UnderperformingProducts =>
      var u := Analyses.UnderperformingProducts(rows);
      var cs := Analyses.Categories(rows);
      Frame(PerformanceTable(u), seq(|u|, i requires 0 <= i < |u| => PositionIn(cs, u[i].productCategory)))
    case DiscountVsRevenue =>
      var d := Analyses.DiscountVsRevenue(rows);
      Frame(DiscountTable(d), Positions(|d|))
  }

  /**
   * The index labels of a result: one per row, and 0, 1, ... for the two
   * analyses that end with `reset_index()`.
   */
  lemma RunIndexLabels(a: Analysis, rows: seq<EnrichedRow>)
    ensures |Run(a, rows).index| == RowCount(Run(a, rows).table)
    ensures a != UnderperformingProducts ==>
      forall i :: 0 <= i < |Run(a, rows).index| ==> Run(a, rows).index[i] == i
  {
  }

  /**
   * The index label of an underperforming_products row is the position of
   * that row in the category-ordered table before `sort_values`.
   */
  lemma UnderperformingIndexIsPreSortPosition(rows: seq<EnrichedRow>, i: nat)
    requires i < |Analyses.UnderperformingProducts(rows)|
    ensures var f := Run(UnderperformingProducts, rows);
      var before := Analyses.PerformanceTable(rows, Analyses.Categories(rows));
      f.index[i] < |before| && before[f.index[i]] == f.table.performance[i]
  {
    var u := Analyses.UnderperformingProducts(rows);
    var cs := Analyses.Categories(rows);
    Analyses.UnderperformingRowsAreSummaries(rows);
    var p := PositionIn(cs, u[i].productCategory);
    assert Run(UnderperformingProducts, rows).index[i] == p;
  }

  function Prefix<T>(rs: seq<T>, n: nat): (p: seq<T>)
    ensures |p| == if |rs| < n then |rs| else n
    ensures p == rs[..|p|]
  {
    if |rs| <= n then rs else rs[..n]
  }

  /** `DataFrame.head(n)`: the first n rows with their index labels, or all rows when there are fewer. */
  function Head(f: Frame, n: nat): (h: Frame)
    ensures RowCount(h.table) == if RowCount(f.table) < n then RowCount(f.table) else n
    ensures h.table.TrendTable? == f.table.TrendTable?
    ensures h.table.PerformanceTable? == f.table.PerformanceTable?
    ensures h.table.DiscountTable? == f.table.DiscountTable?
    ensures f.table.TrendTable? ==> h.table.trend == f.table.trend[..RowCount(h.table)]
    ensures f.table.PerformanceTable? ==> h.table.performance == f.table.performance[..RowCount(h.table)]
    ensures f.table.DiscountTable? ==> h.table.discount == f.table.discount[..RowCount(h.table)]
    ensures h.index == Prefix(f.index, n)
  {
    var t := match f.table
      case TrendTable(rs) => TrendTable(Prefix(rs, n))
      case PerformanceTable(rs) => PerformanceTable(Prefix(rs, n))
      case DiscountTable(rs) => DiscountTable(Prefix(rs, n));
    Frame(t, Prefix(f.index, n))
  }

  /** The rows the explanation is shown are the first rows of the preview. */
  lemma HeadOfHead(f: Frame, m: nat, n: nat)
    requires n <= m
    ensures Head(Head(f, m), n) == Head(f, n)
  {
  }

  /** What a rerun of the page shows for the question in the text box. */
  datatype Outcome =
    | NoQuestion
    | NotUnderstood
    | Answered(intent: string, preview: Frame, explanation: string)

  /**
   * The run block: nothing for an empty question; a warning when the intent
   * is "unknown"; otherwise the registered analysis over the prepared sales
   * table, its first 20 rows as the preview, and the explanation of its
   * first 5 rows.
   */
  function RunAgent(query: string, response: string, explain: (string, Frame) -> string, rows: seq<EnrichedRow>): (o: Outcome)
    ensures query == [] <==> o.NoQuestion?
    ensures o.NotUnderstood? <==> query != [] && Classify(response) == Unknown
    ensures o.Answered? ==> o.intent == Classify(response) && o.intent in IntentToAnalysis
  {
    if query == [] then NoQuestion
    else
      var intent := Classify(response);
      if intent == Unknown then NotUnderstood
      else
        var result := Run(IntentToAnalysis[intent], rows);
        Answered(intent, Head(result, 20), explain(query, Head(result, 5)))
  }

  /**
   * The analysis that runs is the one the registry names for the intent,
   * only its rows are shown, and the explanation is given the first 5 rows
   * of what is shown.
   */
  lemma RunAgentRunsRegisteredAnalysis(query: string, response: string, explain: (string, Frame) -> string, rows: seq<EnrichedRow>)
    requires RunAgent(query, response, explain, rows).Answered?
    ensures var o := RunAgent(query, response, explain, rows);
      var result := Run(IntentToAnalysis[o.intent], rows);
      && o.preview == Head(result, 20)
      && RowCount(o.preview.table) <= 20
      && o.preview.table.TrendTable? == (IntentToAnalysis[o.intent] == SalesTrend)
      && o.preview.table.PerformanceTable? == (IntentToAnalysis[o.intent] == UnderperformingProducts)
      && o.preview.table.DiscountTable? == (IntentToAnalysis[o.intent] == DiscountVsRevenue)
      && o.explanation == explain(query, Head(o.preview, 5))
  {
    var o := RunAgent(query, response, explain, rows);
    HeadOfHead(Run(IntentToAnalysis[o.intent], rows), 20, 5);
  }

  /** The explanation depends on the question and the first 5 result rows, with their index labels, only. */
  lemma ExplanationSeesFirstFiveRows(query: string, response: string, explain: (string, Frame) -> string,
                                     rows: seq<EnrichedRow>, rows': seq<EnrichedRow>)
    requires Classify(response) in IntentToAnalysis && query != []
    requires var a := IntentToAnalysis[Classify(response)]; Head(Run(a, rows), 5) == Head(Run(a, rows'), 5)
    ensures RunAgent(query, response, explain, rows).explanation == RunAgent(query, response, explain, rows').explanation
  {
  }
}

=== FILE: series.dfy ===
/**
 * A pandas Series used as a mapper: an index of keys with one value each.
 * `s.map(series)` looks every key up with `get_indexer`, which refuses an
 * index that holds a key twice, and yields NaN for a key the index lacks.
 */
module Series {
  import opened Wrappers

  datatype Entry<K, V> = Entry(key: K, value: V)

  /** A Series whose values are nullable cells. */
  type Series<K, V> = seq<Entry<K, Option<V>>>

  /** `set_index(keys)[column]`: the i-th key labels the i-th value. */
  function SetIndex<K, V>(keys: seq<K>, values: seq<Option<V>>): (s: Series<K, V>)
    requires |keys| == |values|
    ensures |s| == |keys|
    ensures forall i :: 0 <= i < |s| ==> s[i] == Entry(keys[i], values[i])
  {
    if keys == [] then [] else [Entry(keys[0], values[0])] + SetIndex(keys[1..], values[1..])
  }

  predicate UniqueIndex<K(==), V>(s: Series<K, V>)
  {
    forall i, j :: 0 <= i < j < |s| ==> s[i].key != s[j].key
  }

  predicate HasKey<K(==), V>(s: Series<K, V>, k: K)
  {
    exists i :: 0 <= i < |s| && s[i].key == k
  }

  /** The value labelled `k`, or NaN when the index has no `k`. */
  function Lookup<K(==), V>(s: Series<K, V>, k: K): (r: Option<V>)
    ensures !HasKey(s, k) ==> r == None
  {
    if s == [] then None
    else if s[0].key == k then s[0].value
    else
      var r := Lookup(s[1..], k);
      assert !HasKey(s, k) ==> !HasKey(s[1..], k) by {
        if HasKey(s[1..], k) {
          var i :| 0 <= i < |s[1..]| && s[1..][i].key == k;
          assert s[i + 1].key == k;
        }
      }
      r
  }

  /** In a Series with a unique index, looking up the i-th key gives the i-th value. */
  lemma {:induction false} LookupAt<K, V>(s: Series<K, V>, i: nat)
    requires UniqueIndex(s)
    requires i < |s|
    ensures Lookup(s, s[i].key) == s[i].value
  {
    if i > 0 {
      assert s[0].key != s[i].key;
      assert s[1..][i - 1] == s[i];
      assert UniqueIndex(s[1..]) by {
        forall a, b | 0 <= a < b < |s[1..]| ensures s[1..][a].key != s[1..][b].key {
          assert s[1..][a] == s[a + 1] && s[1..][b] == s[b + 1];
        }
      }
      LookupAt(s[1..], i - 1);
    }
  }

  /**
   * `col.map(s)`: each key of the column looked up in the Series; a Series
   * whose index repeats a key makes the whole call fail.
   */
  function MapThrough<K(==), V>(col: seq<K>, s: Series<K, V>): (r: Result<seq<Option<V>>, string>)
    ensures r.Success? <==> UniqueIndex(s)
    ensures r.Success? ==> |r.value| == |col|
    ensures r.Success? ==> forall i :: 0 <= i < |col| ==> r.value[i] == Lookup(s, col[i])
  {
    if UniqueIndex(s) then Success(seq(|col|, i requires 0 <= i < |col| => Lookup(s, col[i])))
    else Failure("Reindexing only valid with uniquely valued Index objects")
  }
}

=== FILE: wrappers.dfy ===
/** Nullable cells and error-carrying results. */
module Wrappers {

  /** A DataFrame cell that may hold NaN/NaT/None (`None`) or a value. */
  datatype Option<+T> = None | Some(value: T) {

    /** `fillna(default)` applied to one cell. */
    function GetOr(default: T): (r: T)
      ensures Some? ==> r == value
      ensures None? ==> r == default
    {
      match this
      case Some(v) => v
      case None => default
    }
  }

  datatype Result<+R, +E> = Success(value: R) | Failure(error: E)
}
